=== FILE: README.md ===
# subtitle_sync merge engine, modelled in Dafny

`subtitle_sync` merges two SubRip subtitle files. The "original" file has trusted timing. The "final" file has trusted text. `SubtitleSync.process_subtitles` does the merge in these steps:

1. It checks the paths, and returns a single log entry if one is empty.
2. It checks the line-range bounds, and returns a single log entry if one is not an integer.
3. It parses each file into blocks of stripped, non-blank lines.
4. It turns each file's blocks into a table from subtitle index to the block's tail: the timing line, then the text lines.
5. It walks the indices `1..max(|original|, |final|)`. At each index present and non-empty on both sides it writes the original timing line, then the original text, then the final text. Three cases differ. When the index lies outside an active line range, it writes the final entry with no blank line after it. When either entry has fewer than two lines, it writes nothing and logs the index. When the timing lines already agree, it writes the final entry as it stands.
6. It re-emits the final file's entries above the original table's size.
7. It writes a log listing the malformed entries, the timing matches, and the indices missing on either side.

`FileHandler.normalize_path` rewrites the path separators for the host platform.

This project models all of that on given file contents, as follows:

| file | module | what it holds |
|---|---|---|
| `text.dfy` | `Text` | `str.strip`, `str.isdigit`, `int()` on digits, `f"{n}"` |
| `file_handler.dfy` | `FileHandler` | `normalize_path` |
| `block_parser.dfy` | `BlockParser` | `parse_subtitle_block` |
| `subtitle_table.dfy` | `SubtitleTable` | `create_subtitle_dict` |
| `range_formatter.dfy` | `RangeFormatter` | `format_ranges`, plus a reader for its text |
| `sync.dfy` | `SubtitleSync` | `format_subtitle_block`, the per-index policy, both loops of `process_subtitles`, the log and the early returns |
| `merge_properties.dfy` | `MergeProperties` | what the loops guarantee |
| `readback.dfy` | `OutputReadBack` | what the merged output reads back as when parsed again |
| `scenarios.dfy` | `Scenarios` | worked examples |

Each of the four loops below is a `method` with loop invariants, proved equal to a recursive specification function. The properties are lemmas about those functions. The loops are:

- the parser's line loop;
- `format_ranges`'s run loop;
- the main merge loop;
- the trailing merge loop.

The loop body of the main merge loop and the log's range entries are methods too (`SubtitleSync.VisitIndex`, `SubtitleSync.AppendRangeEntry`), proved equal to non-recursive functions. The parts loop of `format_subtitle_block` only concatenates, so it is the function `SubtitleSync.FormatSubtitleBlock`.

Modelling choices:

- A table is a `map<nat, seq<string>>`.
- `dict.get` followed by a truthiness test is `SubtitleSync.Get`, which gives `[]` for an absent key and for an empty entry alike.
- The line-range bounds are integers, with `0` standing for a bound that was not given.
- The platform test `os.name == 'nt'` is a boolean parameter.

Behaviour of the code worth knowing, which the model follows:

- **The restore branch keeps the original text.** When the timing lines differ, the output gets the whole original entry (timing line and original text), then the final text (`logic/subtitle_sync.py:74`). It does not get only the original timing line. `Scenarios.RestoredEntry` shows this.
- **Final-only entries can appear in the output.** The main loop never writes an index that only the final file has. The trailing pass does write the final-only indices between `len(original_dict) + 1` and the number of blocks parsed from the final file (`logic/subtitle_sync.py:85-89`). `Scenarios.TrailingRecovery` shows this.
- **An index can be written twice.** The trailing pass starts above the original table's *size*. An original table with gaps has keys above its size, and such an index can be written twice. The main loop writes it when three things hold. It is at most `max(len(original_dict), len(final_dict))`. Both of its entries are non-empty. Both have at least two lines, or it is range-filtered. The trailing pass writes it again when it is at most the number of blocks parsed from the final file and its final entry is non-empty. `Scenarios.TrailingRepeatsIndex` is one such case. Reading the output back, the later copy wins (`OutputReadBack.MergedOutputReadsBack`).
- **A range-filtered entry has no separator.** Its block is written without the blank line, so on reading back it fuses with the next block (`OutputReadBack.FilteredBlockJoinsNext`).

## Model

| member | source | states |
|---|---|---|
| Text.Strip | logic/subtitle_sync.py:129 | The stripped line is empty or begins and ends with a non-space character. |
| Text.StripIsSurroundedSlice | logic/subtitle_sync.py:129 | The stripped line is a contiguous slice of the raw line. |
| Text.StripEmptyIffBlank | logic/subtitle_sync.py:129-130 | A line strips to the empty string exactly when it is all whitespace, which is the parser's blank-line test. |
| Text.StripIdempotent | logic/subtitle_sync.py:129 | Stripping twice is the same as stripping once. |
| Text.TrimLeftIsSuffix | logic/subtitle_sync.py:129 | Trimming the left removes only leading whitespace and keeps a suffix. |
| Text.TrimRightIsPrefix | logic/subtitle_sync.py:129 | Trimming the right removes only trailing whitespace and keeps a prefix. |
| Text.NatToString | logic/subtitle_sync.py:147 | The index text of `f"{n}"` is all decimal digits, with no leading zero. |
| Text.NatToStringRoundTrip | logic/subtitle_sync.py:141 | `int()` of the text written for an index `n` gives `n` back. |
| Text.NatToStringInjective | logic/subtitle_sync.py:147 | Distinct indices get distinct index lines. |
| FileHandler.NormalizePath | logic/file_handler.py:33-46 | The result has the length of the path. The Windows branch leaves no `/` and the other branch leaves no `\`. Each separator becomes the host's. Every other character is unchanged at its position. |
| FileHandler.NormalizeIdempotent | logic/file_handler.py:43-46 | Normalizing a normalized path changes nothing. |
| FileHandler.NormalizeKeepsEmptiness | logic/file_handler.py:44-46 | A path is empty after normalization exactly when it was empty before. |
| BlockParser.ParseSubtitleBlocks | logic/subtitle_sync.py:123-135 | The generator's loop, with its `block` accumulator, yields exactly the blocks of the specification `ParseBlocks`. |
| BlockParser.ParsedBlocksWellFormed | logic/subtitle_sync.py:128-135 | Every yielded block is non-empty, and each of its lines is stripped and non-blank. So is every pending line. |
| BlockParser.ParsedLinesBeforeLastBlank | logic/subtitle_sync.py:128-135 | The yielded blocks, laid end to end, are the stripped non-blank lines before the last blank line. The lines after it are still pending at the end. |
| BlockParser.ParsedLinesAtBlank | logic/subtitle_sync.py:132-135 | A blank line hands the pending lines over as a block, and the terminated prefix grows to the whole input. |
| BlockParser.ParsedLinesAtNonBlank | logic/subtitle_sync.py:130-131 | A non-blank line joins the pending lines; the yielded blocks are unchanged. |
| BlockParser.TerminatedLength | logic/subtitle_sync.py:132-135 | The terminated prefix is no longer than the input and, when non-empty, ends in a blank line. |
| BlockParser.TerminatedLengthAtLastBlank | logic/subtitle_sync.py:132-135 | No blank line follows the terminated prefix, so it ends at the last blank line. |
| BlockParser.UnterminatedTailIgnored | logic/subtitle_sync.py:128-135 | Appending non-blank lines with no blank line after them leaves the yielded blocks unchanged, so a last block without a terminating blank line is lost. |
| SubtitleTable.CreateSubtitleDict | logic/subtitle_sync.py:137-141 | The table has no more entries than there are blocks. |
| SubtitleTable.TableKeys | logic/subtitle_sync.py:141 | `k` is a key exactly when some block's first line is all digits and reads as `k`. |
| SubtitleTable.TableValue | logic/subtitle_sync.py:141 | The value under `k` is the tail of the last block indexed `k`; no later block is indexed `k`. |
| SubtitleTable.IndexedSnoc | logic/subtitle_sync.py:141 | A block list is indexed `k` exactly when its front is or its last block is. |
| RangeFormatter.FormatRanges | logic/subtitle_sync.py:152-175 | The loop over `numbers[1:]`, with `start`, `prev` and the closed runs, returns the text of the specification `FormatRangesSpec`: `""` for no numbers, else the rendered runs joined by `", "`. |
| RangeFormatter.FormatStep | logic/subtitle_sync.py:161-169 | One iteration extends the open run by a number one above its end. Otherwise it closes the run as `a` or `a-b` and opens a new one. |
| RangeFormatter.FormatClose | logic/subtitle_sync.py:170-175 | Closing the open run after the loop renders every run. |
| RangeFormatter.Runs | logic/subtitle_sync.py:159-169 | The runs are non-empty, the last ends at the last number, and each starts at or below its end. |
| RangeFormatter.AddNumber | logic/subtitle_sync.py:162-169 | One more number ends the last run and keeps the runs ordered. |
| RangeFormatter.ExpandRuns | logic/subtitle_sync.py:152-175 | Expanding the runs gives back the input, in order, whatever the input. |
| RangeFormatter.ExpandAddNumber | logic/subtitle_sync.py:162-169 | Adding a number adds exactly that number to the expansion. |
| RangeFormatter.RunsMaximal | logic/subtitle_sync.py:152-175 | On a strictly ascending input, neighbouring runs are separated by a gap, so the runs are maximal, and the first run starts at the first number. |
| RangeFormatter.FormatRangesRoundTrip | logic/subtitle_sync.py:152-175 | For any list of natural numbers, splitting the text at `", "` and reading each `a` or `a-b` gives the list back. |
| RangeFormatter.SplitJoin | logic/subtitle_sync.py:175 | Splitting the `", "`-joined items gives the items back. |
| RangeFormatter.ParseRenderedRun | logic/subtitle_sync.py:165-173 | A run rendered as `a` (one number) or `a-b` reads back as that run. |
| RangeFormatter.ParseRenderedRuns | logic/subtitle_sync.py:165-173 | Rendered runs read back as those runs. |
| RangeFormatter.RunsNonNegative | logic/subtitle_sync.py:159-169 | Runs over natural numbers start at natural numbers. |
| SubtitleSync.Terminate | logic/subtitle_sync.py:149 | Adding line breaks keeps the number of lines. |
| SubtitleSync.FormatSubtitleBlock | logic/subtitle_sync.py:143-150 | The block is the index line `f"{n}\n"` followed by one line per line of the parts, and every line ends in a line break. Its partners: `OutputReadBack.FormattedIsTerminated` gives the lines, and `OutputReadBack.FormattedBlockReadsBack` shows that the block with a blank line reads back as entry `n`. |
| SubtitleSync.MergeTables | logic/subtitle_sync.py:46-89 | The main loop over `1..max(|orig|, |fin|)` followed by the trailing loop leaves the state (output, log, three lists, processed count) of the specification `Merge`. |
| SubtitleSync.VisitIndex | logic/subtitle_sync.py:54-83 | One iteration of the main loop, whose early returns are its `continue`s, takes a merge state to the state of the specification `Visit`. |
| SubtitleSync.RecoverTrailing | logic/subtitle_sync.py:85-89 | The trailing loop appends exactly `TrailingPass`: for each index of `lo..finalBlockCount` with a non-empty final entry, in ascending order, that entry and a blank line. |
| SubtitleSync.TrailingStep | logic/subtitle_sync.py:86-89 | One iteration of the trailing loop extends the pass by one index. |
| SubtitleSync.AppendRangeEntry | logic/subtitle_sync.py:98-104 | A labelled range entry is appended when its list is non-empty, and nothing otherwise. |
| SubtitleSync.ProcessSubtitles | logic/subtitle_sync.py:18-104 | The whole operation on given file contents equals `Process`: the path check, the bound check, parsing, tables, both loops, then the log in its fixed order. |
| MergeProperties.RangeFilteredStep | logic/subtitle_sync.py:57-60 | With both bounds non-zero, both sides present and the index outside the range, the output gains the index line and the final lines, with no blank separator. Nothing else changes. |
| MergeProperties.InsufficientDataStep | logic/subtitle_sync.py:62-68 | Inside the range, a side shorter than two lines (the original checked first) logs exactly one entry and emits nothing. |
| MergeProperties.TimingMatchStep | logic/subtitle_sync.py:70-77 | Equal timing lines: the index joins the timing-match list, and the output gains the index line, the final lines and a blank line. |
| MergeProperties.RestoreStep | logic/subtitle_sync.py:73-77 | Differing timing lines: the output gains the index line, all original lines, the final lines after the first, and a blank line. No list changes. |
| MergeProperties.MissingStep | logic/subtitle_sync.py:79-83 | An absent or empty original entry goes to missing-in-original, whatever the final side holds. Otherwise an absent or empty final entry goes to missing-in-final. Nothing is emitted or logged. |
| MergeProperties.MissingInOriginalList | logic/subtitle_sync.py:79-80 | After indices `1..k`, missing-in-original is strictly ascending and holds exactly the indices absent or empty in the original. |
| MergeProperties.MissingInFinalList | logic/subtitle_sync.py:82-83 | After indices `1..k`, missing-in-final is strictly ascending and holds exactly the indices present in the original and absent or empty in the final. |
| MergeProperties.TimingMatchList | logic/subtitle_sync.py:70-71 | After indices `1..k`, the timing-match list is strictly ascending and holds exactly the in-range indices whose two sides have two or more lines and equal timing lines. |
| MergeProperties.AnomalyLists | logic/subtitle_sync.py:53-83 | The three lists together: each is strictly ascending and exactly characterised. |
| MergeProperties.AnomalyListsDisjoint | logic/subtitle_sync.py:53-83 | After the main loop, no index is in two lists, and every listed index lies in `1..max(|orig|, |fin|)`. |
| MergeProperties.EntriesDistinct | logic/subtitle_sync.py:62-68 | The two kinds of "insufficient data" entry never coincide, and each determines its index. |
| MergeProperties.LogStep | logic/subtitle_sync.py:62-68 | Each visit adds at most one log entry, and only for a short index. |
| MergeProperties.OriginalShortEntries | logic/subtitle_sync.py:62-64 | An original-file "insufficient data" entry for `n` is logged exactly when `n` is visited with both sides present, inside the range, and an original side shorter than two lines. |
| MergeProperties.FinalShortEntries | logic/subtitle_sync.py:66-68 | A final-file entry for `n` is logged exactly when both sides are present, inside the range, the original has two lines or more and the final fewer. |
| MergeProperties.LogLength | logic/subtitle_sync.py:53-83 | The main loop logs at most one entry per index. |
| MergeProperties.RangeEntryReadsBack | logic/subtitle_sync.py:98-104 | A range entry is present exactly when its list is non-empty. It is the heading, the range text and a line break, and the range text reads back as the list. |
| MergeProperties.EarlyReturns | logic/subtitle_sync.py:22-37 | An empty path gives the single missing-input entry and no output. Otherwise a non-integer bound gives the single invalid-bound entry and no output. Output is produced exactly when neither applies. |
| MergeProperties.SameTablesAllMatch | logic/subtitle_sync.py:53-77 | Merging a table with itself, with every index of `1..k` holding two or more lines inside the range, makes every index a timing match, in order. Nothing is missing or logged, and every index is processed. What the output reads back as is stated by `OutputReadBack.SelfMergeReadsBack`. |
| OutputReadBack.ParsedTableWellFormed | logic/subtitle_sync.py:128-141 | The blocks parsed from any input and the table built from them hold only stripped, non-blank lines. |
| OutputReadBack.TableOfWellFormedBlocks | logic/subtitle_sync.py:141 | A table built from well-formed blocks has well-formed entries. |
| OutputReadBack.StripTerminatedLine | logic/subtitle_sync.py:129 | A written line, stripped when read again, is the line itself. |
| OutputReadBack.IndexLineIsBlockLine | logic/subtitle_sync.py:147 | The written index line is a stripped, non-blank line. |
| OutputReadBack.ScanTerminated | logic/subtitle_sync.py:128-131 | Written block lines are all taken into the pending block, in order. |
| OutputReadBack.ScanWrittenBlock | logic/subtitle_sync.py:128-135 | A formatted block followed by a blank line parses back to that block. |
| OutputReadBack.ScanAppend | logic/subtitle_sync.py:128-135 | With nothing pending, the parser reads what follows independently of what came before. |
| OutputReadBack.ScanNextBlock | logic/subtitle_sync.py:128-135 | Writing one more block with its blank line adds that block to what is read back. |
| OutputReadBack.FilteredBlockJoinsNext | logic/subtitle_sync.py:59-60 | A range-filtered block, written without a separator, fuses with the next block on reading back. |
| OutputReadBack.WrittenEntryShape | logic/subtitle_sync.py:70-74 | A written entry starts with the original timing line and ends with the final text. The original text lies between them unless the timing lines agree. |
| OutputReadBack.FormattedIsTerminated | logic/subtitle_sync.py:143-150 | A formatted block is the index line and the parts' lines, each with a line break. |
| OutputReadBack.OutputStep | logic/subtitle_sync.py:57-83 | For an in-range index, the main loop's output grows by the written block and a blank line, or not at all. |
| OutputReadBack.FormattedBlockReadsBack | logic/subtitle_sync.py:143-150 | A formatted block of stripped, non-blank lines, followed by a blank line, parses back to the index line and the parts' lines. The table built from it maps `n` to those lines. |
| OutputReadBack.IndexedBlockWellFormed | logic/subtitle_sync.py:147-149 | An index line followed by well-formed lines is a well-formed block. |
| OutputReadBack.WrittenEntryWellFormed | logic/subtitle_sync.py:72-74 | A written entry of well-formed tables holds only stripped, non-blank lines. |
| OutputReadBack.MainPassReadsBack | logic/subtitle_sync.py:53-83 | With no range-filtered index, the main loop's output parses back into one block per written index, with nothing pending. |
| OutputReadBack.TrailingPassReadsBack | logic/subtitle_sync.py:85-89 | The trailing pass's output parses back into one block per emitted final entry, with nothing pending. |
| OutputReadBack.DictAppend | logic/subtitle_sync.py:141 | The table of two runs of blocks is the first run's table overridden by the second's. |
| OutputReadBack.DictOfIndexedBlock | logic/subtitle_sync.py:141 | A block written under index `n` reads back as the table entry `n`. |
| OutputReadBack.MainTableStep | logic/subtitle_sync.py:53-77 | The main loop's written entries, by index, grow by index `k` exactly when `k` is written. |
| OutputReadBack.TrailingTableStep | logic/subtitle_sync.py:85-89 | The trailing entries grow by the top index exactly when its final entry is non-empty. |
| OutputReadBack.MainBlocksTable | logic/subtitle_sync.py:53-77 | The main loop's blocks build the table of written entries. |
| OutputReadBack.WrittenBlockTable | logic/subtitle_sync.py:70-77 | The block written for index `k` adds entry `k` to the table read back so far. |
| OutputReadBack.TrailingBlocksTable | logic/subtitle_sync.py:85-89 | The trailing blocks build the table of the final entries they re-emit. |
| OutputReadBack.SelfMergeTable | logic/subtitle_sync.py:53-77 | When a table is merged with itself and every index of `1..k` has two or more lines inside the range, the main loop writes every index of `1..k`, each as its own entry verbatim. |
| OutputReadBack.SelfMergeTables | logic/subtitle_sync.py:53-89 | For such a table over `1..|t|`, the main loop's entries make up the whole table and the trailing pass writes nothing new. |
| OutputReadBack.SelfMergeReadsBack | logic/subtitle_sync.py:46-89 | Merging such a file with itself makes every index a timing match, in order, with nothing missing or logged, and the merged output reads back as the same table. |
| OutputReadBack.MergedOutputReadsBack | logic/subtitle_sync.py:46-89 | With no range-filtered index, the merged output parses completely. Its table maps every written index to its entry: the original timing line, the original text unless the timing lines agree, then the final text. Each recovered final entry is read back verbatim and overrides any earlier entry with the same index. |
| Scenarios.RestoredMainPass | logic/subtitle_sync.py:53-77 | One index with differing timing lines: the restored block keeps the original text ahead of the final text. |
| Scenarios.RestoredEntry | logic/subtitle_sync.py:46-89 | The same entry through the whole merge: five output lines, no list or log entries. |
| Scenarios.MatchedMainPass | logic/subtitle_sync.py:70-77 | One index with equal timing lines: it is listed as a timing match and the final entry is written verbatim. |
| Scenarios.MatchedEntry | logic/subtitle_sync.py:46-89 | The same entry through the whole merge: the timing-match list is `[1]`, and the output is the final block and a blank line. |
| Scenarios.RangeFirst | logic/subtitle_sync.py:57-60 | With the range `[2, 2]`, index 1 is written from the final file with no blank line after it, and is not counted as processed. |
| Scenarios.RangeMainPass | logic/subtitle_sync.py:53-77 | Index 2, inside the range, has its original timing restored after index 1's unseparated block. |
| Scenarios.RangeRestoresInside | logic/subtitle_sync.py:46-89 | The whole merge with the range `[2, 2]`: eight output lines, one processed index, no list or log entries. |
| Scenarios.RecoveryMainPass | logic/subtitle_sync.py:53-83 | Index 1 is restored and index 2, final-only, is recorded as missing in the original. |
| Scenarios.RecoveryTrailingPass | logic/subtitle_sync.py:85-89 | The trailing pass writes the final-only index 2. |
| Scenarios.TrailingRecovery | logic/subtitle_sync.py:46-89 | A final-only index above the original table's size appears in the output, written from the final file alone. |
| Scenarios.RepeatFirstTwo | logic/subtitle_sync.py:53-83 | With original keys 1 and 3, index 1 is restored and index 2 is missing in the original. |
| Scenarios.RepeatMainPass | logic/subtitle_sync.py:53-83 | Index 3 is restored by the main loop too. |
| Scenarios.RepeatTrailingPass | logic/subtitle_sync.py:85-89 | The trailing pass, starting at 3, writes index 3 from the final file. |
| Scenarios.TrailingRepeatsIndex | logic/subtitle_sync.py:46-89 | Index 3 is written twice: restored by the main loop, then again by the trailing pass. |

## Left out

- File reading and writing, and the UTF-8 byte-order mark (`logic/file_handler.py:19-31`, `logic/subtitle_sync.py:95-106`). The file contents are input sequences of lines. The merged lines and the log entries are returned.
- The output and log file names (`logic/subtitle_sync.py:91-93`). These are library path calls. `SubtitleSync.ProcessSubtitles` returns the written lines in place of the output path.
- The catch-all `except Exception` and `logging.error` (`logic/subtitle_sync.py:110-114`). Every modelled operation is total. The two ways the code can raise on given contents, an over-long index line and a non-ASCII digit that `int()` rejects, are listed below.
- Python's `int()` on the bound texts (`logic/subtitle_sync.py:32-33`). A bound arrives as blank, an integer, or text `int()` rejects (`SubtitleSync.BoundText`).
- Python's limit on converting long digit strings. From Python 3.11 on, `int()` raises `ValueError` on a digit string longer than 4300 characters. An index line that long would send `create_subtitle_dict` (`logic/subtitle_sync.py:141`) into the catch-all, with no output. `SubtitleTable.CreateSubtitleDict` builds a key for it instead.
- Embedded line breaks in entry lines. The read-back lemmas in `OutputReadBack` parse the written strings directly as lines. That is the same as writing the file and reading it back only when no written line holds a `\n` or `\r` before its final line break. Lines from `readlines()`, stripped, satisfy this, but the model does not require it.
- Unicode whitespace in `str.strip` and Unicode digits in `str.isdigit`. Only ASCII whitespace and ASCII digits are modelled. A non-ASCII digit that `isdigit` accepts and `int()` rejects would reach the catch-all.
- `processed_lines` is computed and stated by the step lemmas, the scenarios and `MergeProperties.SameTablesAllMatch`. The program never reads it, so no property about the output or the log depends on it.
- OutputReadBack.MainPassReadsBack: requires that no visited index is range-filtered, because a filtered block has no separator and fuses with the next one. `OutputReadBack.FilteredBlockJoinsNext` states that case on its own.
- OutputReadBack.MergedOutputReadsBack: requires that no visited index is range-filtered, for the same reason.
- The GUI, the application start-up, the configuration and the tests are outside the merge engine.

=== FILE: block_parser.dfy ===
/**
 The block parser of the subtitle merge engine: the raw lines of a SubRip
 file are stripped, and runs of non-blank lines become blocks. A block is
 handed out only when a blank line follows it, so a last block that the file
 does not terminate with a blank line is never produced.
 */
module BlockParser {
  import opened Text

  /** The stripped, non-blank lines of one subtitle entry. */
  type Block = seq<string>

  /** The parser's state: the blocks produced so far and the block being accumulated. */
  datatype ParseState = ParseState(blocks: seq<Block>, pending: Block)

  /** The parser's state after it has consumed `lines`, in order. */
  function Scan(lines: seq<string>): ParseState
  {
    if lines == [] then ParseState([], [])
    else
      var st := Scan(lines[..|lines| - 1]);
      var line := Strip(lines[|lines| - 1]);
      if line != "" then ParseState(st.blocks, st.pending + [line])
      else if st.pending != [] then ParseState(st.blocks + [st.pending], [])
      else ParseState(st.blocks, [])
  }

  /** The blocks the parser yields for the whole of `lines`. */
  function ParseBlocks(lines: seq<string>): seq<Block> {
    Scan(lines).blocks
  }

  /** The generator `parse_subtitle_block`, collected into a list. */
  method ParseSubtitleBlocks(lines: seq<string>) returns (blocks: seq<Block>)
    ensures blocks == ParseBlocks(lines)
  {
    blocks := [];
    var block: Block := [];
    for i := 0 to |lines|
      invariant Scan(lines[..i]) == ParseState(blocks, block)
    {
      assert lines[..i + 1][..i] == lines[..i];
      var line := Strip(lines[i]);
      if line != "" {
        block := block + [line];
      } else {
        if block != [] {
          blocks := blocks + [block];
        }
        block := [];
      }
    }
    assert lines[..|lines|] == lines;
  }

  /** A line as a block holds it: stripped and not blank. */
  predicate IsBlockLine(line: string) {
    line != "" && Strip(line) == line
  }

  predicate IsWellFormed(b: Block) {
    b != [] && forall j :: 0 <= j < |b| ==> IsBlockLine(b[j])
  }

  /** Every yielded block is non-empty and holds only stripped, non-blank lines. */
  lemma {:induction false} ParsedBlocksWellFormed(lines: seq<string>)
    ensures forall k :: 0 <= k < |ParseBlocks(lines)| ==> IsWellFormed(ParseBlocks(lines)[k])
    ensures forall j :: 0 <= j < |Scan(lines).pending| ==> IsBlockLine(Scan(lines).pending[j])
  {
    if lines != [] {
      var st := Scan(lines[..|lines| - 1]);
      ParsedBlocksWellFormed(lines[..|lines| - 1]);
      var line := Strip(lines[|lines| - 1]);
      StripIdempotent(lines[|lines| - 1]);
      var bs := Scan(lines).blocks;
      assert bs == st.blocks || (line == "" && st.pending != [] && bs == st.blocks + [st.pending]);
      forall k | 0 <= k < |bs| ensures IsWellFormed(bs[k]) {
        if k == |st.blocks| {
          assert bs[k] == st.pending && st.pending != [];
          assert forall j :: 0 <= j < |st.pending| ==> IsBlockLine(st.pending[j]);
        } else {
          assert bs[k] == ParseBlocks(lines[..|lines| - 1])[k];
        }
      }
    }
  }

  /** The blocks laid end to end. */
  function Flatten(bs: seq<Block>): seq<string> {
    if bs == [] then [] else Flatten(bs[..|bs| - 1]) + bs[|bs| - 1]
  }

  /** The stripped forms of the non-blank lines among `lines`, in order. */
  function StrippedNonBlank(lines: seq<string>): seq<string> {
    if lines == [] then []
    else
      var line := Strip(lines[|lines| - 1]);
      StrippedNonBlank(lines[..|lines| - 1]) + (if line != "" then [line] else [])
  }

  /** The length of the longest prefix of `lines` that is empty or ends in a blank line. */
  function TerminatedLength(lines: seq<string>): (n: nat)
    ensures n <= |lines|
    ensures n > 0 ==> Strip(lines[n - 1]) == ""
  {
    if lines == [] then 0
    else if Strip(lines[|lines| - 1]) == "" then |lines|
    else TerminatedLength(lines[..|lines| - 1])
  }

  /** Every line after the terminated prefix is non-blank, so that prefix ends at the last blank line. */
  lemma {:induction false} TerminatedLengthAtLastBlank(lines: seq<string>)
    ensures forall j :: TerminatedLength(lines) <= j < |lines| ==> Strip(lines[j]) != ""
  {
    if lines != [] && Strip(lines[|lines| - 1]) != "" {
      TerminatedLengthAtLastBlank(lines[..|lines| - 1]);
    }
  }

  /**
   The yielded blocks, laid end to end, are exactly the stripped non-blank
   lines that come before the last blank line; those after it are still
   pending when the input ends.
   */
  lemma {:induction false} ParsedLinesBeforeLastBlank(lines: seq<string>)
    ensures Flatten(ParseBlocks(lines)) == StrippedNonBlank(lines[..TerminatedLength(lines)])
    ensures Scan(lines).pending == StrippedNonBlank(lines[TerminatedLength(lines)..])
  {
    if lines != [] {
      ParsedLinesBeforeLastBlank(lines[..|lines| - 1]);
      if Strip(lines[|lines| - 1]) == "" {
        ParsedLinesAtBlank(lines);
      } else {
        ParsedLinesAtNonBlank(lines);
      }
    }
  }

  /** The step of `ParsedLinesBeforeLastBlank` for a blank last line: the pending lines are yielded. */
  lemma ParsedLinesAtBlank(lines: seq<string>)
    requires lines != [] && Strip(lines[|lines| - 1]) == ""
    requires var init := lines[..|lines| - 1];
             Flatten(ParseBlocks(init)) == StrippedNonBlank(init[..TerminatedLength(init)])
             && Scan(init).pending == StrippedNonBlank(init[TerminatedLength(init)..])
    ensures Flatten(ParseBlocks(lines)) == StrippedNonBlank(lines[..TerminatedLength(lines)])
    ensures Scan(lines).pending == StrippedNonBlank(lines[TerminatedLength(lines)..])
  {
    var init := lines[..|lines| - 1];
    ScanAtBlank(lines);
    BlankLastLine(lines);
    StrippedNonBlankSplit(init, TerminatedLength(init));
    assert lines[..|lines|] == lines;
    assert lines[|lines|..] == [];
  }

  /** A blank last line ends the terminated prefix and adds no stripped line. */
  lemma BlankLastLine(lines: seq<string>)
    requires lines != [] && Strip(lines[|lines| - 1]) == ""
    ensures TerminatedLength(lines) == |lines|
    ensures StrippedNonBlank(lines) == StrippedNonBlank(lines[..|lines| - 1])
  {
  }

  /** A blank last line hands the pending lines over as a block, and nothing stays pending. */
  lemma ScanAtBlank(lines: seq<string>)
    requires lines != [] && Strip(lines[|lines| - 1]) == ""
    ensures var st := Scan(lines[..|lines| - 1]);
            Flatten(ParseBlocks(lines)) == Flatten(st.blocks) + st.pending
    ensures Scan(lines).pending == []
  {
    var st := Scan(lines[..|lines| - 1]);
    if st.pending != [] {
      assert ParseBlocks(lines) == st.blocks + [st.pending];
      assert (st.blocks + [st.pending])[..|st.blocks|] == st.blocks;
    } else {
      assert ParseBlocks(lines) == st.blocks;
    }
  }

  /** The step of `ParsedLinesBeforeLastBlank` for a non-blank last line: it joins the pending lines. */
  lemma ParsedLinesAtNonBlank(lines: seq<string>)
    requires lines != [] && Strip(lines[|lines| - 1]) != ""
    requires var init := lines[..|lines| - 1];
             Flatten(ParseBlocks(init)) == StrippedNonBlank(init[..TerminatedLength(init)])
             && Scan(init).pending == StrippedNonBlank(init[TerminatedLength(init)..])
    ensures Flatten(ParseBlocks(lines)) == StrippedNonBlank(lines[..TerminatedLength(lines)])
    ensures Scan(lines).pending == StrippedNonBlank(lines[TerminatedLength(lines)..])
  {
    var init := lines[..|lines| - 1];
    var n := TerminatedLength(init);
    assert TerminatedLength(lines) == n;
    assert lines[..n] == init[..n];
    assert lines[n..][..|lines[n..]| - 1] == init[n..];
  }

  /** Filtering a concatenation filters each part. */
  lemma {:induction false} StrippedNonBlankSplit(lines: seq<string>, n: nat)
    requires n <= |lines|
    ensures StrippedNonBlank(lines) == StrippedNonBlank(lines[..n]) + StrippedNonBlank(lines[n..])
  {
    if n < |lines| {
      var init := lines[..|lines| - 1];
      StrippedNonBlankSplit(init, n);
      assert init[..n] == lines[..n];
      assert lines[n..][..|lines[n..]| - 1] == init[n..];
    } else {
      assert lines[..n] == lines;
    }
  }

  /**
   Lines after the last blank line are never yielded: appending non-blank
   lines to the input leaves the yielded blocks as they were.
   */
  lemma {:induction false} UnterminatedTailIgnored(lines: seq<string>, tail: seq<string>)
    requires forall j :: 0 <= j < |tail| ==> Strip(tail[j]) != ""
    ensures ParseBlocks(lines + tail) == ParseBlocks(lines)
  {
    if tail != [] {
      var init := tail[..|tail| - 1];
      UnterminatedTailIgnored(lines, init);
      assert (lines + tail)[..|lines + tail| - 1] == lines + init;
    } else {
      assert lines + tail == lines;
    }
  }
}

=== FILE: file_handler.dfy ===
/**
 The one pure operation of the file handler: rewriting a path to the
 directory separator of the host platform. The platform test `os.name == 'nt'`
 is a parameter.
 */
module FileHandler {

  /** `s.replace(target, replacement)` for single characters. */
  function ReplaceChar(s: string, target: char, replacement: char): (r: string)
    ensures |r| == |s|
    ensures forall i :: 0 <= i < |s| ==> r[i] == (if s[i] == target then replacement else s[i])
  {
    if s == [] then []
    else
      var c := s[|s| - 1];
      ReplaceChar(s[..|s| - 1], target, replacement) + [if c == target then replacement else c]
  }

  /**
   The path with every separator of the other platform replaced: on Windows
   each `/` becomes `\`, elsewhere each `\` becomes `/`. Every other character
   stays where it was, so the length is kept and afterwards only the host's
   separator occurs.
   */
  function NormalizePath(path: string, isWindows: bool): (r: string)
    ensures |r| == |path|
    ensures isWindows ==> '/' !in r
    ensures !isWindows ==> '\\' !in r
    ensures forall i :: 0 <= i < |path| && path[i] != '/' && path[i] != '\\' ==> r[i] == path[i]
    ensures forall i :: 0 <= i < |path| && (path[i] == '/' || path[i] == '\\') ==>
                          r[i] == if isWindows then '\\' else '/'
  {
    if isWindows then ReplaceChar(path, '/', '\\') else ReplaceChar(path, '\\', '/')
  }

  /** Normalizing a normalized path changes nothing. */
  lemma NormalizeIdempotent(path: string, isWindows: bool)
    ensures NormalizePath(NormalizePath(path, isWindows), isWindows) == NormalizePath(path, isWindows)
  {
    var once := NormalizePath(path, isWindows);
    var twice := NormalizePath(once, isWindows);
    assert forall i :: 0 <= i < |once| ==> twice[i] == once[i];
  }

  /** A path is empty after normalization exactly when it was empty before. */
  lemma NormalizeKeepsEmptiness(path: string, isWindows: bool)
    ensures NormalizePath(path, isWindows) == [] <==> path == []
  {
    assert |NormalizePath(path, isWindows)| == |path|;
  }
}

=== FILE: merge_properties.dfy ===
/**
 What the merge loop of `process_subtitles` guarantees, index by index and
 for the whole run: the effect of each branch of the per-index policy, the
 three anomaly lists, the "insufficient data" log entries, the range entries
 at the end of the log and the two early returns.
 */
module MergeProperties {
  import opened Wrappers
  import opened Text
  import opened BlockParser
  import opened SubtitleTable
  import opened RangeFormatter
  import opened FileHandler
  import opened SubtitleSync

  lemma FlattenSingle(a: seq<string>)
    ensures Flatten([a]) == a
  {
    assert [a][..0] == [];
  }

  lemma FlattenPair(a: seq<string>, b: seq<string>)
    ensures Flatten([a, b]) == a + b
  {
    assert [a, b][..1] == [a];
    FlattenSingle(a);
  }

  lemma TerminateAppend(a: seq<string>, b: seq<string>)
    ensures Terminate(a + b) == Terminate(a) + Terminate(b)
  {
  }

  /**
   Range filter: with both bounds given and the index outside them, the final
   entry is emitted after its index line, with no blank separator, and
   nothing else changes.
   */
  lemma RangeFilteredStep(st: MergeState, orig: Table, fin: Table, bounds: Bounds, n: nat)
    requires Get(orig, n) != [] && Get(fin, n) != []
    requires bounds.startLine != 0 && bounds.endLine != 0
    requires n < bounds.startLine || n > bounds.endLine
    ensures Visit(st, orig, fin, bounds, n)
         == st.(output := st.output + [NatToString(n) + "\n"] + Terminate(Get(fin, n)))
  {
    FlattenSingle(Get(fin, n));
  }

  /**
   Insufficient data: inside the range, an entry shorter than two lines on
   either side (the original side is checked first) logs exactly one entry
   and emits nothing.
   */
  lemma InsufficientDataStep(st: MergeState, orig: Table, fin: Table, bounds: Bounds, n: nat)
    requires Get(orig, n) != [] && Get(fin, n) != [] && !bounds.Excludes(n)
    requires |Get(orig, n)| < 2 || |Get(fin, n)| < 2
    ensures Visit(st, orig, fin, bounds, n)
         == st.(log := st.log + [if |Get(orig, n)| < 2 then InsufficientOriginalEntry(n)
                                 else InsufficientFinalEntry(n)])
  {
  }

  /**
   Timing match: when the timing lines agree, the index is recorded and the
   final entry is emitted unchanged, followed by a blank separator.
   */
  lemma TimingMatchStep(st: MergeState, orig: Table, fin: Table, bounds: Bounds, n: nat)
    requires Get(orig, n) != [] && Get(fin, n) != [] && !bounds.Excludes(n)
    requires |Get(orig, n)| >= 2 && |Get(fin, n)| >= 2 && Get(orig, n)[0] == Get(fin, n)[0]
    ensures Visit(st, orig, fin, bounds, n)
         == st.(output := st.output + [NatToString(n) + "\n"] + Terminate(Get(fin, n)) + ["\n"],
                timingMatch := st.timingMatch + [n], processed := st.processed + 1)
  {
    FlattenSingle(Get(fin, n));
  }

  /**
   Restore: when the timing lines differ, the whole original entry (its
   timing line and its text) is emitted, then the final entry without its
   timing line, then a blank separator; no anomaly list changes.
   */
  lemma RestoreStep(st: MergeState, orig: Table, fin: Table, bounds: Bounds, n: nat)
    requires Get(orig, n) != [] && Get(fin, n) != [] && !bounds.Excludes(n)
    requires |Get(orig, n)| >= 2 && |Get(fin, n)| >= 2 && Get(orig, n)[0] != Get(fin, n)[0]
    ensures Visit(st, orig, fin, bounds, n)
         == st.(output := st.output + [NatToString(n) + "\n"] + Terminate(Get(orig, n))
                          + Terminate(Get(fin, n)[1..]) + ["\n"],
                processed := st.processed + 1)
  {
    FlattenPair(Get(orig, n), Get(fin, n)[1..]);
    TerminateAppend(Get(orig, n), Get(fin, n)[1..]);
  }

  /**
   A missing side: an absent or empty original entry is recorded as missing
   in the original whatever the final side holds; otherwise an absent or
   empty final entry is recorded as missing in the final file. Nothing is
   emitted or logged.
   */
  lemma MissingStep(st: MergeState, orig: Table, fin: Table, bounds: Bounds, n: nat)
    requires Get(orig, n) == [] || Get(fin, n) == []
    ensures Visit(st, orig, fin, bounds, n)
         == if Get(orig, n) == [] then st.(missingInOriginal := st.missingInOriginal + [n])
            else st.(missingInFinal := st.missingInFinal + [n])
  {
  }

  lemma AscendingSnoc(ns: seq<nat>, x: nat)
    requires StrictlyAscending(ns)
    requires forall i :: 0 <= i < |ns| ==> ns[i] < x
    ensures StrictlyAscending(ns + [x])
  {
  }

  /** The index's timing lines agree and it is not range-filtered, so it is a timing match. */
  predicate IsTimingMatch(orig: Table, fin: Table, bounds: Bounds, n: nat) {
    Get(orig, n) != [] && Get(fin, n) != [] && !bounds.Excludes(n)
    && |Get(orig, n)| >= 2 && |Get(fin, n)| >= 2 && Get(orig, n)[0] == Get(fin, n)[0]
  }

  /** Appending an index above every listed one keeps a list strictly ascending. */
  lemma ListSnoc(ns: seq<nat>, k: nat)
    requires StrictlyAscending(ns)
    requires forall n: nat :: n in ns ==> n < k
    ensures StrictlyAscending(ns + [k])
  {
    forall i | 0 <= i < |ns| ensures ns[i] < k {
      assert ns[i] in ns;
    }
    AscendingSnoc(ns, k);
  }

  /** `missing_in_original`: strictly ascending, exactly the indices of `1..k` absent or empty on the original side. */
  lemma {:induction false} MissingInOriginalList(orig: Table, fin: Table, bounds: Bounds, k: nat)
    ensures StrictlyAscending(MainPass(orig, fin, bounds, k).missingInOriginal)
    ensures forall n: nat :: n in MainPass(orig, fin, bounds, k).missingInOriginal
                             <==> 1 <= n <= k && Get(orig, n) == []
  {
    if k > 0 {
      MissingInOriginalList(orig, fin, bounds, k - 1);
      var before := MainPass(orig, fin, bounds, k - 1).missingInOriginal;
      assert MainPass(orig, fin, bounds, k).missingInOriginal
          == if Get(orig, k) == [] then before + [k] else before;
      if Get(orig, k) == [] {
        ListSnoc(before, k);
      }
    }
  }

  /** `missing_in_final`: strictly ascending, exactly the indices of `1..k` present in the original only. */
  lemma {:induction false} MissingInFinalList(orig: Table, fin: Table, bounds: Bounds, k: nat)
    ensures StrictlyAscending(MainPass(orig, fin, bounds, k).missingInFinal)
    ensures forall n: nat :: n in MainPass(orig, fin, bounds, k).missingInFinal
                             <==> 1 <= n <= k && Get(orig, n) != [] && Get(fin, n) == []
  {
    if k > 0 {
      MissingInFinalList(orig, fin, bounds, k - 1);
      var before := MainPass(orig, fin, bounds, k - 1).missingInFinal;
      assert MainPass(orig, fin, bounds, k).missingInFinal
          == if Get(orig, k) != [] && Get(fin, k) == [] then before + [k] else before;
      if Get(orig, k) != [] && Get(fin, k) == [] {
        ListSnoc(before, k);
      }
    }
  }

  /** `skipped_due_to_timing_match`: strictly ascending, exactly the timing matches of `1..k`. */
  lemma {:induction false} TimingMatchList(orig: Table, fin: Table, bounds: Bounds, k: nat)
    ensures StrictlyAscending(MainPass(orig, fin, bounds, k).timingMatch)
    ensures forall n: nat :: n in MainPass(orig, fin, bounds, k).timingMatch
                             <==> 1 <= n <= k && IsTimingMatch(orig, fin, bounds, n)
  {
    if k > 0 {
      TimingMatchList(orig, fin, bounds, k - 1);
      var before := MainPass(orig, fin, bounds, k - 1).timingMatch;
      assert MainPass(orig, fin, bounds, k).timingMatch
          == if IsTimingMatch(orig, fin, bounds, k) then before + [k] else before;
      if IsTimingMatch(orig, fin, bounds, k) {
        ListSnoc(before, k);
      }
    }
  }

  /**
   After the main loop has visited `1..k`, each anomaly list is strictly
   ascending and holds exactly the indices of `1..k` in its class: absent or
   empty on the original side; present on the original side and absent or
   empty on the final side; equal timing lines inside the range.
   */
  lemma AnomalyLists(orig: Table, fin: Table, bounds: Bounds, k: nat)
    ensures var st := MainPass(orig, fin, bounds, k);
            StrictlyAscending(st.timingMatch) && StrictlyAscending(st.missingInOriginal)
            && StrictlyAscending(st.missingInFinal)
    ensures forall n: nat :: n in MainPass(orig, fin, bounds, k).missingInOriginal
                             <==> 1 <= n <= k && Get(orig, n) == []
    ensures forall n: nat :: n in MainPass(orig, fin, bounds, k).missingInFinal
                             <==> 1 <= n <= k && Get(orig, n) != [] && Get(fin, n) == []
    ensures forall n: nat :: n in MainPass(orig, fin, bounds, k).timingMatch
                             <==> 1 <= n <= k && IsTimingMatch(orig, fin, bounds, n)
  {
    MissingInOriginalList(orig, fin, bounds, k);
    MissingInFinalList(orig, fin, bounds, k);
    TimingMatchList(orig, fin, bounds, k);
  }

  /** No index is in two anomaly lists, and every listed index lies in `1..max(|orig|, |fin|)`. */
  lemma AnomalyListsDisjoint(orig: Table, fin: Table, bounds: Bounds)
    ensures var st := MainPass(orig, fin, bounds, MaxLineNumber(orig, fin));
            forall n: nat :: (n in st.timingMatch || n in st.missingInOriginal || n in st.missingInFinal)
                             ==> 1 <= n <= MaxLineNumber(orig, fin)
    ensures var st := MainPass(orig, fin, bounds, MaxLineNumber(orig, fin));
            forall n: nat :: !(n in st.timingMatch && n in st.missingInOriginal)
                             && !(n in st.timingMatch && n in st.missingInFinal)
                             && !(n in st.missingInOriginal && n in st.missingInFinal)
  {
    AnomalyLists(orig, fin, bounds, MaxLineNumber(orig, fin));
  }

  /** The two "insufficient data" entries are distinct, and each names its index unambiguously. */
  lemma EntriesDistinct(m: nat, n: nat)
    ensures InsufficientOriginalEntry(m) == InsufficientOriginalEntry(n) ==> m == n
    ensures InsufficientFinalEntry(m) == InsufficientFinalEntry(n) ==> m == n
    ensures InsufficientOriginalEntry(m) != InsufficientFinalEntry(n)
  {
    var a, b := InsufficientOriginalEntry(m), InsufficientOriginalEntry(n);
    if a == b {
      assert a[|OriginalEntryPrefix|..|a| - |EntrySuffix|] == NatToString(m);
      assert b[|OriginalEntryPrefix|..|b| - |EntrySuffix|] == NatToString(n);
      NatToStringInjective(m, n);
    }
    var c, d := InsufficientFinalEntry(m), InsufficientFinalEntry(n);
    if c == d {
      assert c[|FinalEntryPrefix|..|c| - |EntrySuffix|] == NatToString(m);
      assert d[|FinalEntryPrefix|..|d| - |EntrySuffix|] == NatToString(n);
      NatToStringInjective(m, n);
    }
    assert InsufficientOriginalEntry(m)[9] == OriginalEntryPrefix[9] != FinalEntryPrefix[9]
                                           == InsufficientFinalEntry(n)[9];
  }

  /** The index is visited with both sides present, inside the range, and one side short of two lines. */
  predicate IsShort(orig: Table, fin: Table, bounds: Bounds, n: nat) {
    Get(orig, n) != [] && Get(fin, n) != [] && !bounds.Excludes(n)
    && (|Get(orig, n)| < 2 || |Get(fin, n)| < 2)
  }

  /** The log entry the main loop writes for a short index. */
  function ShortEntry(orig: Table, n: nat): string {
    if |Get(orig, n)| < 2 then InsufficientOriginalEntry(n) else InsufficientFinalEntry(n)
  }

  /** One visit appends at most one log entry, and only for a short index. */
  lemma LogStep(orig: Table, fin: Table, bounds: Bounds, k: nat)
    requires k > 0
    ensures MainPass(orig, fin, bounds, k).log
         == MainPass(orig, fin, bounds, k - 1).log
            + if IsShort(orig, fin, bounds, k) then [ShortEntry(orig, k)] else []
  {
    assert MainPass(orig, fin, bounds, k) == Visit(MainPass(orig, fin, bounds, k - 1), orig, fin, bounds, k);
  }

  /**
   After the main loop has visited `1..k`, the log holds an original-file
   "insufficient data" entry for exactly those indices whose two sides are
   present, inside the range, and whose original side is shorter than two
   lines.
   */
  lemma {:induction false} OriginalShortEntries(orig: Table, fin: Table, bounds: Bounds, k: nat)
    ensures forall n: nat :: InsufficientOriginalEntry(n) in MainPass(orig, fin, bounds, k).log
              <==> 1 <= n <= k && IsShort(orig, fin, bounds, n) && |Get(orig, n)| < 2
  {
    if k > 0 {
      OriginalShortEntries(orig, fin, bounds, k - 1);
      LogStep(orig, fin, bounds, k);
      forall n: nat ensures InsufficientOriginalEntry(n) == ShortEntry(orig, k)
                            <==> n == k && |Get(orig, k)| < 2 {
        EntriesDistinct(n, k);
      }
    }
  }

  /**
   After the main loop has visited `1..k`, the log holds a final-file
   "insufficient data" entry for exactly those indices whose two sides are
   present, inside the range, the original side having two lines or more and
   the final side fewer.
   */
  lemma {:induction false} FinalShortEntries(orig: Table, fin: Table, bounds: Bounds, k: nat)
    ensures forall n: nat :: InsufficientFinalEntry(n) in MainPass(orig, fin, bounds, k).log
              <==> 1 <= n <= k && IsShort(orig, fin, bounds, n) && |Get(orig, n)| >= 2
  {
    if k > 0 {
      FinalShortEntries(orig, fin, bounds, k - 1);
      LogStep(orig, fin, bounds, k);
      forall n: nat ensures InsufficientFinalEntry(n) == ShortEntry(orig, k)
                            <==> n == k && |Get(orig, k)| >= 2 {
        EntriesDistinct(k, n);
      }
    }
  }

  /** The main loop writes at most one log entry per index. */
  lemma {:induction false} LogLength(orig: Table, fin: Table, bounds: Bounds, k: nat)
    ensures |MainPass(orig, fin, bounds, k).log| <= k
  {
    if k > 0 {
      LogLength(orig, fin, bounds, k - 1);
      LogStep(orig, fin, bounds, k);
    }
  }

  /**
   A range entry of the log is present exactly when its list is non-empty;
   it is the heading, the list's range text and a line break, and reading
   the range text back gives the list.
   */
  lemma RangeEntryReadsBack(heading: string, ns: seq<nat>)
    ensures ns == [] <==> RangeEntry(heading, ns) == []
    ensures ns != [] ==>
              |RangeEntry(heading, ns)| == 1
              && var e := RangeEntry(heading, ns)[0];
                 |heading| < |e| && e[..|heading|] == heading && e[|e| - 1] == '\n'
                 && ParseRanges(e[|heading|..|e| - 1]) == Some(ns)
  {
    if ns != [] {
      var e := RangeEntry(heading, ns)[0];
      assert e[|heading|..|e| - 1] == FormatRangesSpec(ns);
      FormatRangesRoundTrip(ns);
    }
  }

  /**
   The two early returns: an empty path (after normalization, which keeps
   emptiness) gives the one missing-input entry and no output; otherwise a
   bound that is not a number gives the one invalid-bound entry and no
   output. Output is written exactly when neither applies.
   */
  lemma EarlyReturns(originalPath: string, finalPath: string, savePath: string, isWindows: bool,
                     startText: BoundText, endText: BoundText,
                     originalLines: seq<string>, finalLines: seq<string>)
    ensures originalPath == [] || finalPath == [] || savePath == [] ==>
              Process(originalPath, finalPath, savePath, isWindows, startText, endText,
                      originalLines, finalLines) == SyncResult([MissingInputEntry], None)
    ensures originalPath != [] && finalPath != [] && savePath != []
            && (startText.NotANumber? || endText.NotANumber?) ==>
              Process(originalPath, finalPath, savePath, isWindows, startText, endText,
                      originalLines, finalLines) == SyncResult([InvalidBoundEntry], None)
    ensures Process(originalPath, finalPath, savePath, isWindows, startText, endText,
                    originalLines, finalLines).written.None?
            <==> originalPath == [] || finalPath == [] || savePath == []
                 || startText.NotANumber? || endText.NotANumber?
  {
    NormalizeKeepsEmptiness(originalPath, isWindows);
    NormalizeKeepsEmptiness(finalPath, isWindows);
    NormalizeKeepsEmptiness(savePath, isWindows);
  }

  /**
   Synchronizing a file with itself: when every index of `1..k` holds an
   entry of two lines or more inside the range, every index is a timing
   match, in order, and nothing is missing, logged or restored.
   */
  lemma {:induction false} SameTablesAllMatch(t: Table, bounds: Bounds, k: nat)
    requires forall n: nat :: 1 <= n <= k ==> |Get(t, n)| >= 2 && !bounds.Excludes(n)
    ensures var st := MainPass(t, t, bounds, k);
            st.timingMatch == seq(k, i => i + 1)
            && st.missingInOriginal == [] && st.missingInFinal == [] && st.log == []
            && st.processed == k
  {
    if k > 0 {
      SameTablesAllMatch(t, bounds, k - 1);
      var before := MainPass(t, t, bounds, k - 1);
      assert MainPass(t, t, bounds, k) == Visit(before, t, t, bounds, k);
      TimingMatchStep(before, t, t, bounds, k);
      assert seq(k, i => i + 1) == seq(k - 1, i => i + 1) + [k];
    }
  }
}

=== FILE: range_formatter.dfy ===
/**
 The range formatter of the log: a list of indices becomes text such as
 "3-5, 9". Scanning left to right, a number one above the previous one extends
 the current run; any other number closes it and starts a new one.
 */
module RangeFormatter {
  import opened Text
  import opened Wrappers

  /** The consecutive integers `first`, `first + 1`, ..., `last`. */
  datatype Run = Run(first: int, last: int)

  /** The integers a run stands for. */
  function Interval(r: Run): (s: seq<int>)
    ensures |s| == if r.first <= r.last then r.last - r.first + 1 else 0
  {
    seq(if r.first <= r.last then r.last - r.first + 1 else 0, i => r.first + i)
  }

  /** The integers the runs stand for, in order. */
  function Expand(rs: seq<Run>): seq<int> {
    if rs == [] then [] else Expand(rs[..|rs| - 1]) + Interval(rs[|rs| - 1])
  }

  /** The runs the formatter closes over `ns`, the last one still open at the end. */
  function Runs(ns: seq<int>): (rs: seq<Run>)
    requires ns != []
    ensures rs != [] && rs[|rs| - 1].last == ns[|ns| - 1]
    ensures Ordered(rs)
  {
    if |ns| == 1 then [Run(ns[0], ns[0])]
    else AddNumber(Runs(ns[..|ns| - 1]), ns[|ns| - 1])
  }

  /** The next number `x` extends the open run when it is one above its end, and opens a new run otherwise. */
  function AddNumber(rs: seq<Run>, x: int): (r: seq<Run>)
    requires rs != []
    ensures r != [] && r[|r| - 1].last == x
    ensures Ordered(rs) ==> Ordered(r)
  {
    var cur := rs[|rs| - 1];
    if x == cur.last + 1 then rs[..|rs| - 1] + [Run(cur.first, x)]
    else rs + [Run(x, x)]
  }

  /** Every run starts at or below its end. */
  predicate Ordered(rs: seq<Run>) {
    forall i :: 0 <= i < |rs| ==> rs[i].first <= rs[i].last
  }

  /** `f"{start}"` for a one-number run, `f"{start}-{prev}"` otherwise. */
  function RenderRun(r: Run): string {
    if r.first == r.last then IntToString(r.first)
    else IntToString(r.first) + "-" + IntToString(r.last)
  }

  function RenderAll(rs: seq<Run>): (items: seq<string>)
    ensures |items| == |rs| && forall i :: 0 <= i < |rs| ==> items[i] == RenderRun(rs[i])
  {
    seq(|rs|, i requires 0 <= i < |rs| => RenderRun(rs[i]))
  }

  /** `', '.join(items)`. */
  function Join(items: seq<string>): string {
    if items == [] then ""
    else if |items| == 1 then items[0]
    else items[0] + ", " + Join(items[1..])
  }

  /** The text `format_ranges` returns. */
  function FormatRangesSpec(ns: seq<int>): string {
    if ns == [] then "" else Join(RenderAll(Runs(ns)))
  }

  /** `format_ranges`: the loop over `numbers[1:]` with `start`, `prev` and the list of closed runs. */
  method FormatRanges(numbers: seq<int>) returns (s: string)
    ensures s == FormatRangesSpec(numbers)
  {
    if numbers == [] {
      return "";
    }
    var ranges: seq<string> := [];
    var start := numbers[0];
    var prev := numbers[0];
    for i := 1 to |numbers|
      invariant Scanned(numbers, i, ranges, start, prev)
    {
      FormatStep(numbers, i, ranges, start, prev);
      var number := numbers[i];
      if number == prev + 1 {
        prev := number;
      } else {
        if start == prev {
          ranges := ranges + [IntToString(start)];
        } else {
          ranges := ranges + [IntToString(start) + "-" + IntToString(prev)];
        }
        start, prev := number, number;
      }
    }
    FormatClose(numbers, ranges, start, prev);
    if start == prev {
      ranges := ranges + [IntToString(start)];
    } else {
      ranges := ranges + [IntToString(start) + "-" + IntToString(prev)];
    }
    s := Join(ranges);
  }

  /** After `ns[..i]`, `ranges` renders the closed runs and `start`, `prev` bound the open one. */
  predicate Scanned(ns: seq<int>, i: int, ranges: seq<string>, start: int, prev: int)
    requires 1 <= i <= |ns|
  {
    var rs := Runs(ns[..i]);
    ranges == RenderAll(rs[..|rs| - 1]) && rs[|rs| - 1] == Run(start, prev)
  }

  /** One step of the loop: extend the open run, or close it and open a new one. */
  lemma FormatStep(ns: seq<int>, i: int, ranges: seq<string>, start: int, prev: int)
    requires 1 <= i < |ns| && Scanned(ns, i, ranges, start, prev)
    ensures ns[i] == prev + 1 ==> Scanned(ns, i + 1, ranges, start, ns[i])
    ensures ns[i] != prev + 1 ==> Scanned(ns, i + 1, ranges + [RenderRun(Run(start, prev))], ns[i], ns[i])
  {
    var rs := Runs(ns[..i]);
    assert ns[..i + 1][..i] == ns[..i];
    var rs' := Runs(ns[..i + 1]);
    if ns[i] == prev + 1 {
      assert rs' == rs[..|rs| - 1] + [Run(start, ns[i])];
      assert rs'[..|rs'| - 1] == rs[..|rs| - 1];
    } else {
      assert rs' == rs + [Run(ns[i], ns[i])];
      assert rs'[..|rs'| - 1] == rs;
      RenderAllLast(rs);
    }
  }

  /** Closing the open run after the last number renders every run. */
  lemma FormatClose(ns: seq<int>, ranges: seq<string>, start: int, prev: int)
    requires ns != [] && Scanned(ns, |ns|, ranges, start, prev)
    ensures ranges + [RenderRun(Run(start, prev))] == RenderAll(Runs(ns))
  {
    var rs := Runs(ns);
    assert ns[..|ns|] == ns;
    RenderAllLast(rs);
  }

  /** Rendering the runs renders all but the last, then the last. */
  lemma RenderAllLast(rs: seq<Run>)
    requires rs != []
    ensures RenderAll(rs) == RenderAll(rs[..|rs| - 1]) + [RenderRun(rs[|rs| - 1])]
  {
  }

  /** Expanding the runs gives back the input, whatever its order. */
  lemma {:induction false} ExpandRuns(ns: seq<int>)
    requires ns != []
    ensures Expand(Runs(ns)) == ns
  {
    if |ns| == 1 {
      ExpandSnoc([], Run(ns[0], ns[0]));
    } else {
      var init, x := ns[..|ns| - 1], ns[|ns| - 1];
      SplitLast(ns);
      ExpandRuns(init);
      ExpandAddNumber(Runs(init), x);
    }
  }

  /** One more number adds exactly that number to the expansion of the runs. */
  lemma ExpandAddNumber(rs: seq<Run>, x: int)
    requires rs != [] && Ordered(rs)
    ensures Expand(AddNumber(rs, x)) == Expand(rs) + [x]
  {
    var front, cur := rs[..|rs| - 1], rs[|rs| - 1];
    SplitLast(rs);
    if x == cur.last + 1 {
      ExpandExtended(front, cur, x);
    } else {
      ExpandSnoc(rs, Run(x, x));
    }
  }

  lemma SplitLast<T>(s: seq<T>)
    requires s != []
    ensures s == s[..|s| - 1] + [s[|s| - 1]]
  {
  }

  /** Extending the last run by the next integer appends that integer to the expansion. */
  lemma ExpandExtended(front: seq<Run>, cur: Run, x: int)
    requires cur.first <= cur.last && x == cur.last + 1
    ensures Expand(front + [Run(cur.first, x)]) == Expand(front + [cur]) + [x]
  {
    ExpandSnoc(front, cur);
    ExpandSnoc(front, Run(cur.first, x));
    assert Interval(Run(cur.first, x)) == Interval(cur) + [x];
  }

  lemma ExpandSnoc(rs: seq<Run>, r: Run)
    ensures Expand(rs + [r]) == Expand(rs) + Interval(r)
  {
    assert (rs + [r])[..|rs|] == rs;
  }

  predicate StrictlyAscending(ns: seq<int>) {
    forall i, j :: 0 <= i < j < |ns| ==> ns[i] < ns[j]
  }

  /**
   On a strictly ascending input the runs are maximal: each is followed by a
   run that starts more than one above its end, so no two could be joined.
   */
  lemma {:induction false} RunsMaximal(ns: seq<int>)
    requires ns != [] && StrictlyAscending(ns)
    ensures Separated(Runs(ns))
    ensures Runs(ns)[0].first == ns[0]
  {
    if |ns| > 1 {
      var init := ns[..|ns| - 1];
      var rs0 := Runs(init);
      var x := ns[|ns| - 1];
      var cur := rs0[|rs0| - 1];
      RunsMaximal(init);
      assert x > init[|init| - 1];
      if x == cur.last + 1 {
        SeparatedExtended(rs0, x);
      } else {
        SeparatedSnoc(rs0, Run(x, x));
      }
    }
  }

  /** Between two neighbouring runs lies at least one missing integer. */
  predicate Separated(rs: seq<Run>) {
    forall i :: 0 <= i < |rs| - 1 ==> rs[i].last + 1 < rs[i + 1].first
  }

  lemma SeparatedExtended(rs: seq<Run>, x: int)
    requires rs != [] && Separated(rs)
    ensures Separated(rs[..|rs| - 1] + [Run(rs[|rs| - 1].first, x)])
  {
    var rs' := rs[..|rs| - 1] + [Run(rs[|rs| - 1].first, x)];
    forall i | 0 <= i < |rs'| - 1 ensures rs'[i].last + 1 < rs'[i + 1].first {
      assert rs'[i] == rs[i];
      assert rs'[i + 1].first == rs[i + 1].first;
    }
  }

  lemma SeparatedSnoc(rs: seq<Run>, r: Run)
    requires rs != [] && Separated(rs) && rs[|rs| - 1].last + 1 < r.first
    ensures Separated(rs + [r])
  {
  }

  // Reading the text back.

  /** Index of the first occurrence of `c` in `s`, or `|s|` if there is none. */
  function IndexOf(s: string, c: char): (k: nat)
    ensures k <= |s| && c !in s[..k]
    ensures k < |s| ==> s[k] == c
  {
    if s == [] then 0 else if s[0] == c then 0 else 1 + IndexOf(s[1..], c)
  }

  /** `s.split(', ')` for text whose commas are all followed by a space. */
  function SplitItems(s: string): seq<string>
    decreases |s|
  {
    var k := IndexOf(s, ',');
    if k == |s| then [s]
    else if k + 1 < |s| && s[k + 1] == ' ' then [s[..k]] + SplitItems(s[k + 2..])
    else [s[..k]] + SplitItems(s[k + 1..])
  }

  function ReadNat(s: string): Option<nat> {
    if IsDigits(s) then Some(DecimalValue(s)) else None
  }

  /** Reads `a` or `a-b` with `a` and `b` natural numbers. */
  function ParseItem(item: string): Option<Run> {
    var k := IndexOf(item, '-');
    if k == |item| then
      match ReadNat(item)
      case Some(a) => Some(Run(a, a))
      case None => None
    else
      match (ReadNat(item[..k]), ReadNat(item[k + 1..]))
      case (Some(a), Some(b)) => Some(Run(a, b))
      case _ => None
  }

  function ParseRuns(items: seq<string>): Option<seq<Run>> {
    if items == [] then Some([])
    else
      match (ParseItem(items[0]), ParseRuns(items[1..]))
      case (Some(r), Some(rs)) => Some([r] + rs)
      case _ => None
  }

  /** The numbers a range text lists; `None` for text that is not a range list. */
  function ParseRanges(s: string): Option<seq<int>> {
    if s == "" then Some([])
    else
      match ParseRuns(SplitItems(s))
      case Some(rs) => Some(Expand(rs))
      case None => None
  }

  lemma NatTextHasNo(n: nat, c: char)
    requires !IsDigit(c)
    ensures c !in NatToString(n)
  {
  }

  /** A rendered run of natural numbers reads back as itself. */
  lemma ParseRenderedRun(r: Run)
    requires 0 <= r.first <= r.last
    ensures ParseItem(RenderRun(r)) == Some(r)
  {
    var a := NatToString(r.first);
    NatToStringRoundTrip(r.first);
    NatToStringRoundTrip(r.last);
    NatTextHasNo(r.first, '-');
    NatTextHasNo(r.last, '-');
    if r.first != r.last {
      var item := a + "-" + NatToString(r.last);
      assert item[..|a|] == a && item[|a| + 1..] == NatToString(r.last);
      assert IndexOf(item, '-') == |a| by {
        assert item[|a|] == '-';
        assert item[..|a|] == a;
        IndexOfFirst(item, '-', |a|);
      }
    } else {
      assert IndexOf(a, '-') == |a|;
    }
  }

  /** `IndexOf` finds the position of `c` when nothing before it is `c`. */
  lemma {:induction false} IndexOfFirst(s: string, c: char, k: nat)
    requires k < |s| && s[k] == c && c !in s[..k]
    ensures IndexOf(s, c) == k
  {
    if k > 0 {
      assert s[1..][..k - 1] == s[1..k];
      assert s[0] in s[..k];
      IndexOfFirst(s[1..], c, k - 1);
    }
  }

  /** Splitting joined comma-free items gives the items back. */
  lemma {:induction false} SplitJoin(items: seq<string>)
    requires items != []
    requires forall i :: 0 <= i < |items| ==> ',' !in items[i]
    ensures SplitItems(Join(items)) == items
  {
    if |items| == 1 {
      assert IndexOf(items[0], ',') == |items[0]|;
    } else {
      var a := items[0];
      var s := Join(items);
      var rest := Join(items[1..]);
      assert s == a + ", " + rest;
      assert s[..|a|] == a;
      IndexOfFirst(s, ',', |a|);
      assert s[|a| + 2..] == rest;
      SplitJoin(items[1..]);
      assert items == [a] + items[1..];
    }
  }

  lemma {:induction false} ParseRenderedRuns(rs: seq<Run>)
    requires forall i :: 0 <= i < |rs| ==> 0 <= rs[i].first <= rs[i].last
    ensures ParseRuns(RenderAll(rs)) == Some(rs)
  {
    if rs != [] {
      ParseRenderedRun(rs[0]);
      ParseRenderedRuns(rs[1..]);
      assert RenderAll(rs)[1..] == RenderAll(rs[1..]);
      assert rs == [rs[0]] + rs[1..];
    }
  }

  /**
   The text of a list of natural numbers reads back as that list: empty text
   for the empty list, and otherwise the items name, in order, exactly the
   numbers given.
   */
  lemma FormatRangesRoundTrip(ns: seq<nat>)
    ensures ParseRanges(FormatRangesSpec(ns)) == Some(ns)
  {
    if ns != [] {
      var rs := Runs(ns);
      RunsNonNegative(ns);
      var items := RenderAll(rs);
      forall i | 0 <= i < |items| ensures ',' !in items[i] {
        NatTextHasNo(rs[i].first, ',');
        NatTextHasNo(rs[i].last, ',');
      }
      SplitJoin(items);
      assert items[0] == RenderRun(rs[0]);
      assert Join(items) != "";
      ParseRenderedRuns(rs);
      ExpandRuns(ns);
    }
  }

  /** Runs over natural numbers start at natural numbers. */
  lemma {:induction false} RunsNonNegative(ns: seq<int>)
    requires ns != [] && forall i :: 0 <= i < |ns| ==> ns[i] >= 0
    ensures forall i :: 0 <= i < |Runs(ns)| ==> Runs(ns)[i].first >= 0
  {
    if |ns| > 1 {
      RunsNonNegative(ns[..|ns| - 1]);
    }
  }
}

=== FILE: readback.dfy ===
/**
 Reading the merged file back. The lines `process_subtitles` writes are fed
 to the same block parser and table builder that read its inputs, which
 shows what the merge produced index by index: every written entry keeps the
 original timing line and ends with the final text, entries recovered by the
 trailing pass come back verbatim and override an earlier entry with the same
 index, and a range-filtered entry, written without a separator, fuses with
 the entry after it.

 The written strings are parsed as the lines of the file. That is what
 reading the file back gives only when no written line holds a line break
 before its last character; lines that came stripped from `readlines()`
 hold none, but the lemmas here do not require it.
 */
module OutputReadBack {
  import opened Text
  import opened BlockParser
  import opened SubtitleTable
  import opened SubtitleSync
  import opened MergeProperties

  /** Every line of every entry is stripped and non-blank, as in a table built from parsed blocks. */
  predicate TableWellFormed(t: Table) {
    forall n :: n in t ==> forall j :: 0 <= j < |t[n]| ==> IsBlockLine(t[n][j])
  }

  predicate AllWellFormed(bs: seq<Block>) {
    forall i :: 0 <= i < |bs| ==> IsWellFormed(bs[i])
  }

  /** A table built from well-formed blocks has well-formed entries. */
  lemma {:induction false} TableOfWellFormedBlocks(bs: seq<Block>)
    requires AllWellFormed(bs)
    ensures TableWellFormed(CreateSubtitleDict(bs))
  {
    if bs != [] {
      var init := bs[..|bs| - 1];
      assert AllWellFormed(init) by {
        forall i | 0 <= i < |init| ensures IsWellFormed(init[i]) {
          assert init[i] == bs[i];
        }
      }
      TableOfWellFormedBlocks(init);
      var b := bs[|bs| - 1];
      assert IsWellFormed(b);
      assert forall j :: 0 <= j < |b[1..]| ==> b[1..][j] == b[j + 1];
    }
  }

  /** The tables `process_subtitles` builds from its inputs have well-formed entries. */
  lemma ParsedTableWellFormed(lines: seq<string>)
    ensures AllWellFormed(ParseBlocks(lines))
    ensures TableWellFormed(CreateSubtitleDict(ParseBlocks(lines)))
  {
    ParsedBlocksWellFormed(lines);
    TableOfWellFormedBlocks(ParseBlocks(lines));
  }

  /** A stripped, non-blank line followed by a line break strips back to itself. */
  lemma StripTerminatedLine(line: string)
    requires IsBlockLine(line)
    ensures Strip(line + "\n") == line
  {
    var s := line + "\n";
    assert !IsSpace(line[0]) && !IsSpace(line[|line| - 1]);
    assert TrimLeft(s) == s;
    assert s[..|s| - 1] == line;
    assert TrimRight(s) == TrimRight(line);
  }

  /** The written index line is a block line. */
  lemma IndexLineIsBlockLine(n: nat)
    ensures IsBlockLine(NatToString(n))
  {
    var s := NatToString(n);
    assert IsDigit(s[0]) && IsDigit(s[|s| - 1]);
    StripTrimmed(s);
  }

  /** Terminated block lines are all taken into the pending block, in order. */
  lemma {:induction false} ScanTerminated(lines: seq<string>)
    requires forall j :: 0 <= j < |lines| ==> IsBlockLine(lines[j])
    ensures Scan(Terminate(lines)) == ParseState([], lines)
  {
    if lines != [] {
      var init := lines[..|lines| - 1];
      ScanTerminated(init);
      assert Terminate(lines)[..|lines| - 1] == Terminate(init);
      StripTerminatedLine(lines[|lines| - 1]);
      assert lines == init + [lines[|lines| - 1]];
    }
  }

  /** A well-formed block, terminated line by line and followed by a blank line, parses back to itself. */
  lemma ScanWrittenBlock(b: Block)
    requires IsWellFormed(b)
    ensures Scan(Terminate(b) + ["\n"]) == ParseState([b], [])
  {
    ScanTerminated(b);
    var s := Terminate(b) + ["\n"];
    assert s[..|s| - 1] == Terminate(b);
    assert Strip("\n") == "";
  }

  /** Once nothing is pending, the parser reads what follows independently of what came before. */
  lemma {:induction false} ScanAppend(a: seq<string>, b: seq<string>)
    requires Scan(a).pending == []
    ensures Scan(a + b) == ParseState(Scan(a).blocks + Scan(b).blocks, Scan(b).pending)
  {
    if b == [] {
      assert a + b == a;
    } else {
      var init := b[..|b| - 1];
      ScanAppend(a, init);
      assert (a + b)[..|a + b| - 1] == a + init;
      assert (a + b)[|a + b| - 1] == b[|b| - 1];
    }
  }

  /** Writing one more well-formed block, with its blank line, adds it to what is read back. */
  lemma ScanNextBlock(lines: seq<string>, bs: seq<Block>, b: Block)
    requires Scan(lines) == ParseState(bs, [])
    requires IsWellFormed(b)
    ensures Scan(lines + (Terminate(b) + ["\n"])) == ParseState(bs + [b], [])
  {
    ScanWrittenBlock(b);
    ScanAppend(lines, Terminate(b) + ["\n"]);
  }

  /**
   A range-filtered entry is written without a blank separator, so on
   reading back it fuses with the entry written after it into one block.
   */
  lemma FilteredBlockJoinsNext(first: Block, next: Block)
    requires IsWellFormed(first) && IsWellFormed(next)
    ensures ParseBlocks(Terminate(first) + Terminate(next) + ["\n"]) == [first + next]
  {
    TerminateAppend(first, next);
    ScanWrittenBlock(first + next);
  }

  /** The main loop writes a block for the index: both sides present, inside the range, at least two lines each. */
  predicate Written(orig: Table, fin: Table, bounds: Bounds, n: nat) {
    Get(orig, n) != [] && Get(fin, n) != [] && !bounds.Excludes(n)
    && |Get(orig, n)| >= 2 && |Get(fin, n)| >= 2
  }

  /**
   The entry the main loop writes for a written index, after its index line:
   the original timing line, the original text unless the timing lines
   agree, then the final text.
   */
  function WrittenEntry(orig: Table, fin: Table, n: nat): (e: seq<string>)
    requires Get(orig, n) != [] && Get(fin, n) != []
  {
    var o, f := Get(orig, n), Get(fin, n);
    (if o[0] == f[0] then [o[0]] else o) + f[1..]
  }

  /**
   A written entry starts with the original timing line and ends with the
   final text; the original text lies between them unless the timing lines
   agree.
   */
  lemma WrittenEntryShape(orig: Table, fin: Table, n: nat)
    requires Get(orig, n) != [] && Get(fin, n) != []
    ensures var e, o, f := WrittenEntry(orig, fin, n), Get(orig, n), Get(fin, n);
            |e| >= 1 && e[0] == o[0] && |f| - 1 <= |e| && e[|e| - (|f| - 1)..] == f[1..]
            && e[1..|e| - (|f| - 1)] == if o[0] == f[0] then [] else o[1..]
  {
  }

  function IndexedBlock(n: nat, entry: seq<string>): Block {
    [NatToString(n)] + entry
  }

  /** The blocks the main loop's output reads back as, for indices `1..k`. */
  function MainBlocks(orig: Table, fin: Table, bounds: Bounds, k: nat): seq<Block> {
    if k == 0 then []
    else MainBlocks(orig, fin, bounds, k - 1)
         + if Written(orig, fin, bounds, k) then [IndexedBlock(k, WrittenEntry(orig, fin, k))] else []
  }

  /** A formatted block is its index line and its parts' lines, each terminated. */
  lemma FormattedIsTerminated(n: nat, parts: seq<seq<string>>)
    ensures FormatSubtitleBlock(n, parts) == Terminate(IndexedBlock(n, Flatten(parts)))
  {
    TerminateAppend([NatToString(n)], Flatten(parts));
    assert Terminate([NatToString(n)]) == [NatToString(n) + "\n"];
  }

  /** For an index inside the range, the main loop's output grows by the written block and a blank line, or not at all. */
  lemma OutputStep(orig: Table, fin: Table, bounds: Bounds, k: nat)
    requires k > 0 && !bounds.Excludes(k)
    ensures MainPass(orig, fin, bounds, k).output
         == MainPass(orig, fin, bounds, k - 1).output
            + if Written(orig, fin, bounds, k)
              then Terminate(IndexedBlock(k, WrittenEntry(orig, fin, k))) + ["\n"] else []
  {
    var st := MainPass(orig, fin, bounds, k - 1);
    var o, f := Get(orig, k), Get(fin, k);
    assert MainPass(orig, fin, bounds, k) == Visit(st, orig, fin, bounds, k);
    if Written(orig, fin, bounds, k) {
      var e := WrittenEntry(orig, fin, k);
      if o[0] == f[0] {
        assert Classify(orig, fin, bounds, k) == TimingMatch;
        assert e == f;
        FlattenSingle(f);
        FormattedIsTerminated(k, [f]);
      } else {
        assert Classify(orig, fin, bounds, k) == Restore;
        FlattenPair(o, f[1..]);
        FormattedIsTerminated(k, [o, f[1..]]);
      }
    } else {
      var action := Classify(orig, fin, bounds, k);
      assert action.InsufficientOriginal? || action.InsufficientFinal?
             || action.MissingInOriginal? || action.MissingInFinal?;
      assert MainPass(orig, fin, bounds, k).output == st.output;
    }
  }

  lemma IndexedBlockWellFormed(n: nat, entry: seq<string>)
    requires forall j :: 0 <= j < |entry| ==> IsBlockLine(entry[j])
    ensures IsWellFormed(IndexedBlock(n, entry))
  {
    IndexLineIsBlockLine(n);
    var b := IndexedBlock(n, entry);
    assert forall j :: 1 <= j < |b| ==> b[j] == entry[j - 1];
  }

  lemma WrittenEntryWellFormed(orig: Table, fin: Table, n: nat)
    requires TableWellFormed(orig) && TableWellFormed(fin)
    requires Get(orig, n) != [] && Get(fin, n) != []
    ensures forall j :: 0 <= j < |WrittenEntry(orig, fin, n)| ==> IsBlockLine(WrittenEntry(orig, fin, n)[j])
  {
    var o, f := Get(orig, n), Get(fin, n);
    assert n in orig && n in fin;
    assert forall j :: 0 <= j < |o| ==> IsBlockLine(o[j]);
    assert forall j :: 0 <= j < |f| ==> IsBlockLine(f[j]);
  }

  /** With no index of `1..k` range-filtered, the main loop's output reads back as `MainBlocks`, nothing left pending. */
  lemma {:induction false} MainPassReadsBack(orig: Table, fin: Table, bounds: Bounds, k: nat)
    requires TableWellFormed(orig) && TableWellFormed(fin)
    requires forall n: nat :: 1 <= n <= k ==> !bounds.Excludes(n)
    ensures Scan(MainPass(orig, fin, bounds, k).output) == ParseState(MainBlocks(orig, fin, bounds, k), [])
  {
    if k > 0 {
      MainPassReadsBack(orig, fin, bounds, k - 1);
      OutputStep(orig, fin, bounds, k);
      var before := MainPass(orig, fin, bounds, k - 1).output;
      if Written(orig, fin, bounds, k) {
        WrittenEntryWellFormed(orig, fin, k);
        IndexedBlockWellFormed(k, WrittenEntry(orig, fin, k));
        var b := IndexedBlock(k, WrittenEntry(orig, fin, k));
        ScanNextBlock(before, MainBlocks(orig, fin, bounds, k - 1), b);
        assert MainPass(orig, fin, bounds, k).output == before + (Terminate(b) + ["\n"]);
        assert MainBlocks(orig, fin, bounds, k) == MainBlocks(orig, fin, bounds, k - 1) + [b];
      } else {
        assert MainPass(orig, fin, bounds, k).output == before;
        assert MainBlocks(orig, fin, bounds, k) == MainBlocks(orig, fin, bounds, k - 1);
      }
    }
  }

  /** The blocks the trailing pass's output reads back as, for indices `lo <= n < hi`. */
  function TrailingBlocks(fin: Table, lo: nat, hi: nat): seq<Block>
    decreases hi - lo
  {
    if hi <= lo then []
    else TrailingBlocks(fin, lo, hi - 1)
         + if Get(fin, hi - 1) != [] then [IndexedBlock(hi - 1, Get(fin, hi - 1))] else []
  }

  /** The trailing pass's output reads back as `TrailingBlocks`, nothing left pending. */
  lemma {:induction false} TrailingPassReadsBack(fin: Table, lo: nat, hi: nat)
    requires TableWellFormed(fin)
    ensures Scan(TrailingPass(fin, lo, hi)) == ParseState(TrailingBlocks(fin, lo, hi), [])
    decreases hi - lo
  {
    if lo < hi {
      var n := hi - 1;
      TrailingPassReadsBack(fin, lo, n);
      var before := TrailingPass(fin, lo, n);
      if Get(fin, n) != [] {
        var f := Get(fin, n);
        var b := IndexedBlock(n, f);
        assert n in fin && forall j :: 0 <= j < |f| ==> IsBlockLine(f[j]);
        IndexedBlockWellFormed(n, f);
        FlattenSingle(f);
        FormattedIsTerminated(n, [f]);
        ScanNextBlock(before, TrailingBlocks(fin, lo, n), b);
        assert TrailingPass(fin, lo, hi) == before + (Terminate(b) + ["\n"]);
        assert TrailingBlocks(fin, lo, hi) == TrailingBlocks(fin, lo, n) + [b];
      } else {
        assert TrailingPass(fin, lo, hi) == before;
        assert TrailingBlocks(fin, lo, hi) == TrailingBlocks(fin, lo, n);
      }
    } else {
      assert TrailingPass(fin, lo, hi) == [] && TrailingBlocks(fin, lo, hi) == [];
      assert Scan([]) == ParseState([], []);
    }
  }

  predicate AllIndexed(bs: seq<Block>) {
    forall i :: 0 <= i < |bs| ==> bs[i] != []
  }

  /** Building a table from two runs of blocks: the later run's entries override the earlier's. */
  lemma {:induction false} DictAppend(a: seq<Block>, b: seq<Block>)
    requires AllIndexed(a) && AllIndexed(b)
    ensures AllIndexed(a + b)
    ensures CreateSubtitleDict(a + b) == CreateSubtitleDict(a) + CreateSubtitleDict(b)
  {
    if b == [] {
      assert a + b == a;
    } else {
      var init := b[..|b| - 1];
      assert AllIndexed(init) by {
        forall i | 0 <= i < |init| ensures init[i] != [] {
          assert init[i] == b[i];
        }
      }
      DictAppend(a, init);
      assert (a + b)[..|a + b| - 1] == a + init;
      assert (a + b)[|a + b| - 1] == b[|b| - 1];
    }
  }

  /** A block written under index `n` reads back into the table as entry `n`. */
  lemma DictOfIndexedBlock(n: nat, entry: seq<string>)
    ensures CreateSubtitleDict([IndexedBlock(n, entry)]) == map[n := entry]
  {
    NatToStringRoundTrip(n);
    assert [IndexedBlock(n, entry)][..0] == [];
  }

  /**
   A formatted block whose parts hold only block lines, followed by a blank
   line, parses back to the index line and the parts' lines, and the table
   built from it maps the index to those lines.
   */
  lemma FormattedBlockReadsBack(n: nat, parts: seq<seq<string>>)
    requires forall j :: 0 <= j < |Flatten(parts)| ==> IsBlockLine(Flatten(parts)[j])
    ensures ParseBlocks(FormatSubtitleBlock(n, parts) + ["\n"]) == [IndexedBlock(n, Flatten(parts))]
    ensures CreateSubtitleDict(ParseBlocks(FormatSubtitleBlock(n, parts) + ["\n"])) == map[n := Flatten(parts)]
  {
    FormattedIsTerminated(n, parts);
    IndexedBlockWellFormed(n, Flatten(parts));
    ScanWrittenBlock(IndexedBlock(n, Flatten(parts)));
    DictOfIndexedBlock(n, Flatten(parts));
  }

  /** The main loop's written entries, by index. */
  function MainTable(orig: Table, fin: Table, bounds: Bounds, k: nat): Table {
    map n: nat | 1 <= n <= k && Written(orig, fin, bounds, n) :: WrittenEntry(orig, fin, n)
  }

  /** The trailing pass's entries, by index: the final file's non-empty entries in `lo <= n < hi`. */
  function TrailingTable(fin: Table, lo: nat, hi: nat): Table {
    map n: nat | lo <= n < hi && Get(fin, n) != [] :: Get(fin, n)
  }

  lemma MainTableStep(orig: Table, fin: Table, bounds: Bounds, k: nat)
    requires k > 0
    ensures MainTable(orig, fin, bounds, k)
         == if Written(orig, fin, bounds, k) then MainTable(orig, fin, bounds, k - 1) + map[k := WrittenEntry(orig, fin, k)]
            else MainTable(orig, fin, bounds, k - 1)
  {
    var a := MainTable(orig, fin, bounds, k);
    var b := if Written(orig, fin, bounds, k) then MainTable(orig, fin, bounds, k - 1) + map[k := WrittenEntry(orig, fin, k)]
             else MainTable(orig, fin, bounds, k - 1);
    assert forall n :: n in a <==> n in b;
    assert forall n :: n in a ==> a[n] == b[n];
  }

  lemma TrailingTableStep(fin: Table, lo: nat, hi: nat)
    requires lo < hi
    ensures TrailingTable(fin, lo, hi)
         == if Get(fin, hi - 1) != [] then TrailingTable(fin, lo, hi - 1) + map[hi - 1 := Get(fin, hi - 1)]
            else TrailingTable(fin, lo, hi - 1)
  {
    var a := TrailingTable(fin, lo, hi);
    var b := if Get(fin, hi - 1) != [] then TrailingTable(fin, lo, hi - 1) + map[hi - 1 := Get(fin, hi - 1)]
             else TrailingTable(fin, lo, hi - 1);
    assert forall n :: n in a <==> n in b;
    assert forall n :: n in a ==> a[n] == b[n];
  }

  lemma {:induction false} MainBlocksTable(orig: Table, fin: Table, bounds: Bounds, k: nat)
    ensures AllIndexed(MainBlocks(orig, fin, bounds, k))
    ensures CreateSubtitleDict(MainBlocks(orig, fin, bounds, k)) == MainTable(orig, fin, bounds, k)
  {
    if k > 0 {
      MainBlocksTable(orig, fin, bounds, k - 1);
      if Written(orig, fin, bounds, k) {
        WrittenBlockTable(orig, fin, bounds, k);
      } else {
        assert MainBlocks(orig, fin, bounds, k) == MainBlocks(orig, fin, bounds, k - 1);
        MainTableStep(orig, fin, bounds, k);
      }
    } else {
      assert MainTable(orig, fin, bounds, k) == map[];
    }
  }

  /** The block written for index `k` adds entry `k` to the table read back so far. */
  lemma WrittenBlockTable(orig: Table, fin: Table, bounds: Bounds, k: nat)
    requires k > 0 && Written(orig, fin, bounds, k)
    requires AllIndexed(MainBlocks(orig, fin, bounds, k - 1))
    requires CreateSubtitleDict(MainBlocks(orig, fin, bounds, k - 1)) == MainTable(orig, fin, bounds, k - 1)
    ensures AllIndexed(MainBlocks(orig, fin, bounds, k))
    ensures CreateSubtitleDict(MainBlocks(orig, fin, bounds, k)) == MainTable(orig, fin, bounds, k)
  {
    var before := MainBlocks(orig, fin, bounds, k - 1);
    var block := [IndexedBlock(k, WrittenEntry(orig, fin, k))];
    assert MainBlocks(orig, fin, bounds, k) == before + block;
    DictOfIndexedBlock(k, WrittenEntry(orig, fin, k));
    DictAppend(before, block);
    MainTableStep(orig, fin, bounds, k);
  }

  lemma {:induction false} TrailingBlocksTable(fin: Table, lo: nat, hi: nat)
    ensures AllIndexed(TrailingBlocks(fin, lo, hi))
    ensures CreateSubtitleDict(TrailingBlocks(fin, lo, hi)) == TrailingTable(fin, lo, hi)
    decreases hi - lo
  {
    if lo < hi {
      var n := hi - 1;
      TrailingBlocksTable(fin, lo, n);
      var before := TrailingBlocks(fin, lo, n);
      if Get(fin, n) != [] {
        DictOfIndexedBlock(n, Get(fin, n));
        DictAppend(before, [IndexedBlock(n, Get(fin, n))]);
        TrailingTableStep(fin, lo, hi);
      } else {
        assert TrailingBlocks(fin, lo, hi) == before;
        TrailingTableStep(fin, lo, hi);
      }
    } else {
      assert TrailingTable(fin, lo, hi) == map[];
    }
  }

  /**
   Reading the merged file back, when no visited index is range-filtered:
   nothing is left pending, and the table holds, for each index the main loop
   wrote, the original timing line followed by the original text (unless the
   timing lines agree) and the final text; each non-empty final entry with an
   index in `|orig| + 1 .. finalBlockCount` is read back verbatim and, being
   written later, replaces what the main loop wrote under the same index.
   */
  lemma MergedOutputReadsBack(orig: Table, fin: Table, finalBlockCount: nat, bounds: Bounds)
    requires TableWellFormed(orig) && TableWellFormed(fin)
    requires forall n: nat :: 1 <= n <= MaxLineNumber(orig, fin) ==> !bounds.Excludes(n)
    ensures var out := Merge(orig, fin, finalBlockCount, bounds).output;
            Scan(out).pending == [] && AllIndexed(ParseBlocks(out))
            && CreateSubtitleDict(ParseBlocks(out))
               == MainTable(orig, fin, bounds, MaxLineNumber(orig, fin))
                  + TrailingTable(fin, |orig| + 1, finalBlockCount + 1)
  {
    var k := MaxLineNumber(orig, fin);
    var lo, hi := |orig| + 1, finalBlockCount + 1;
    var main := MainPass(orig, fin, bounds, k).output;
    var trailing := TrailingPass(fin, lo, hi);
    var mb, tb := MainBlocks(orig, fin, bounds, k), TrailingBlocks(fin, lo, hi);
    assert Merge(orig, fin, finalBlockCount, bounds).output == main + trailing;
    MainPassReadsBack(orig, fin, bounds, k);
    TrailingPassReadsBack(fin, lo, hi);
    ScanAppend(main, trailing);
    assert Scan(main + trailing) == ParseState(mb + tb, []);
    MainBlocksTable(orig, fin, bounds, k);
    TrailingBlocksTable(fin, lo, hi);
    DictAppend(mb, tb);
  }

  /** The indices `1..k`. */
  function Indices(k: nat): (r: set<nat>)
    ensures |r| == k
    ensures forall n: nat :: n in r <==> 1 <= n <= k
  {
    if k == 0 then {} else Indices(k - 1) + {k}
  }

  /** A table holding every index of `1..|t|` holds nothing else. */
  lemma KeysAreIndices(t: Table)
    requires forall n: nat :: 1 <= n <= |t| ==> n in t
    ensures t.Keys == Indices(|t|)
  {
    var r := Indices(|t|);
    assert r <= t.Keys;
    assert |t.Keys| == |t|;
    assert |t.Keys - r| == |t.Keys| - |r|;
  }

  /**
   The main loop of a table merged with itself writes every index of `1..k`
   verbatim: with equal timing lines the written entry is the final entry.
   */
  lemma SelfMergeTable(t: Table, bounds: Bounds, k: nat)
    requires forall n: nat :: 1 <= n <= k ==> |Get(t, n)| >= 2 && !bounds.Excludes(n)
    ensures MainTable(t, t, bounds, k) == map n: nat | 1 <= n <= k :: Get(t, n)
  {
    var a := MainTable(t, t, bounds, k);
    var b := map n: nat | 1 <= n <= k :: Get(t, n);
    assert forall n :: n in a <==> n in b;
    forall n | n in a ensures a[n] == b[n] {
      var f := Get(t, n);
      assert WrittenEntry(t, t, n) == [f[0]] + f[1..] == f;
    }
  }

  /** For a table holding every index of `1..|t|`, the tables the two passes write back make up the table itself. */
  lemma SelfMergeTables(t: Table, bounds: Bounds, finalBlockCount: nat)
    requires forall n: nat :: 1 <= n <= |t| ==> |Get(t, n)| >= 2 && !bounds.Excludes(n)
    ensures MainTable(t, t, bounds, |t|) + TrailingTable(t, |t| + 1, finalBlockCount + 1) == t
  {
    SelfMergeTable(t, bounds, |t|);
    forall n: nat | 1 <= n <= |t| ensures n in t {
      assert |Get(t, n)| >= 2;
    }
    KeysAreIndices(t);
    var main := MainTable(t, t, bounds, |t|);
    assert TrailingTable(t, |t| + 1, finalBlockCount + 1) == map[];
    assert main.Keys == t.Keys;
  }

  /**
   Synchronizing a file with itself, when every index of `1..|t|` holds an
   entry of two lines or more inside the range: every index is a timing
   match, nothing is missing or logged, and the merged file reads back as
   the very same table.
   */
  lemma SelfMergeReadsBack(t: Table, finalBlockCount: nat, bounds: Bounds)
    requires TableWellFormed(t)
    requires forall n: nat :: 1 <= n <= |t| ==> |Get(t, n)| >= 2 && !bounds.Excludes(n)
    ensures var st := Merge(t, t, finalBlockCount, bounds);
            st.timingMatch == seq(|t|, i => i + 1)
            && st.missingInOriginal == [] && st.missingInFinal == [] && st.log == []
    ensures var out := Merge(t, t, finalBlockCount, bounds).output;
            AllIndexed(ParseBlocks(out)) && CreateSubtitleDict(ParseBlocks(out)) == t
  {
    assert MaxLineNumber(t, t) == |t|;
    SameTablesAllMatch(t, bounds, |t|);
    MergedOutputReadsBack(t, t, finalBlockCount, bounds);
    SelfMergeTables(t, bounds, finalBlockCount);
  }
}

=== FILE: scenarios.dfy ===
/**
 Worked cases of the merge on small tables, each computed in full: a
 restored entry, a timing match, an index outside an active line range,
 recovery of a final-only entry by the trailing pass, and an index the
 trailing pass writes a second time.
 */
module Scenarios {
  import opened Text
  import opened SubtitleTable
  import opened SubtitleSync
  import opened MergeProperties

  const NoRange := Bounds(0, 0)

  lemma TerminateOne(a: string)
    ensures Terminate([a]) == [a + "\n"]
  {
  }

  lemma TerminateTwo(a: string, b: string)
    ensures Terminate([a, b]) == [a + "\n", b + "\n"]
  {
  }

  // Differing timing lines for index 1.
  const RestoreOrig: Table := map[1 := ["00:00:00,000 --> 00:00:05,000", "Hi"]]
  const RestoreFin: Table := map[1 := ["00:00:01,000 --> 00:00:06,000", "Hello"]]

  lemma RestoredMainPass()
    ensures var st := MainPass(RestoreOrig, RestoreFin, NoRange, 1);
            st.output == ["1\n", "00:00:00,000 --> 00:00:05,000\n", "Hi\n", "Hello\n", "\n"]
            && st.timingMatch == [] && st.missingInOriginal == [] && st.missingInFinal == [] && st.log == []
  {
    var orig, fin := RestoreOrig, RestoreFin;
    var o, f := orig[1], fin[1];
    assert Get(orig, 1) == o && Get(fin, 1) == f;
    assert MainPass(orig, fin, NoRange, 1) == Visit(Initial, orig, fin, NoRange, 1);
    RestoreStep(Initial, orig, fin, NoRange, 1);
    assert o == [o[0], o[1]] && f[1..] == [f[1]];
    TerminateTwo(o[0], o[1]);
    TerminateOne(f[1]);
    assert NatToString(1) + "\n" == "1\n";
    assert o[0] + "\n" == "00:00:00,000 --> 00:00:05,000\n";
    assert o[1] + "\n" == "Hi\n";
    assert f[1] + "\n" == "Hello\n";
  }

  /**
   Differing timing lines: the original timing line is restored, and the
   original text stays in the output ahead of the final text.
   */
  lemma RestoredEntry()
    ensures var st := Merge(RestoreOrig, RestoreFin, 1, NoRange);
            st.output == ["1\n", "00:00:00,000 --> 00:00:05,000\n", "Hi\n", "Hello\n", "\n"]
            && st.timingMatch == [] && st.missingInOriginal == [] && st.missingInFinal == [] && st.log == []
  {
    assert RestoreOrig.Keys == {1} && RestoreFin.Keys == {1};
    assert |RestoreOrig| == 1 && |RestoreFin| == 1;
    RestoredMainPass();
    assert TrailingPass(RestoreFin, 2, 2) == [];
  }

  // Equal timing lines for index 1.
  const MatchOrig: Table := map[1 := ["00:00:00,000 --> 00:00:05,000", "Hi"]]
  const MatchFin: Table := map[1 := ["00:00:00,000 --> 00:00:05,000", "Hello"]]

  lemma MatchedMainPass()
    ensures var st := MainPass(MatchOrig, MatchFin, NoRange, 1);
            st.output == ["1\n", "00:00:00,000 --> 00:00:05,000\n", "Hello\n", "\n"]
            && st.timingMatch == [1] && st.missingInOriginal == [] && st.missingInFinal == [] && st.log == []
  {
    var orig, fin := MatchOrig, MatchFin;
    var o, f := orig[1], fin[1];
    assert Get(orig, 1) == o && Get(fin, 1) == f;
    assert MainPass(orig, fin, NoRange, 1) == Visit(Initial, orig, fin, NoRange, 1);
    TimingMatchStep(Initial, orig, fin, NoRange, 1);
    assert f == [f[0], f[1]];
    TerminateTwo(f[0], f[1]);
    assert NatToString(1) + "\n" == "1\n";
    assert f[0] + "\n" == "00:00:00,000 --> 00:00:05,000\n";
    assert f[1] + "\n" == "Hello\n";
  }

  /**
   Equal timing lines: the index is listed as a timing match and the final
   entry is written verbatim; the original text does not appear.
   */
  lemma MatchedEntry()
    ensures var st := Merge(MatchOrig, MatchFin, 1, NoRange);
            st.output == ["1\n", "00:00:00,000 --> 00:00:05,000\n", "Hello\n", "\n"]
            && st.timingMatch == [1] && st.missingInOriginal == [] && st.missingInFinal == [] && st.log == []
  {
    assert MatchOrig.Keys == {1} && MatchFin.Keys == {1};
    assert |MatchOrig| == 1 && |MatchFin| == 1;
    MatchedMainPass();
    assert TrailingPass(MatchFin, 2, 2) == [];
  }

  // The line range [2, 2], with differing timing lines at indices 1 and 2.
  const Only2 := Bounds(2, 2)
  const RangeOrig: Table := map[1 := ["T1", "a"], 2 := ["T2", "b"]]
  const RangeFin: Table := map[1 := ["U1", "A"], 2 := ["U2", "B"]]

  lemma RangeFirst()
    ensures var st := MainPass(RangeOrig, RangeFin, Only2, 1);
            st.output == ["1\n", "U1\n", "A\n"] && st.processed == 0
            && st.timingMatch == [] && st.missingInOriginal == [] && st.missingInFinal == [] && st.log == []
  {
    var orig, fin := RangeOrig, RangeFin;
    var f := fin[1];
    assert Get(orig, 1) == orig[1] && Get(fin, 1) == f;
    assert MainPass(orig, fin, Only2, 1) == Visit(Initial, orig, fin, Only2, 1);
    RangeFilteredStep(Initial, orig, fin, Only2, 1);
    assert f == [f[0], f[1]];
    TerminateTwo(f[0], f[1]);
    assert NatToString(1) + "\n" == "1\n";
    assert f[0] + "\n" == "U1\n" && f[1] + "\n" == "A\n";
  }

  lemma RangeMainPass()
    ensures var st := MainPass(RangeOrig, RangeFin, Only2, 2);
            st.output == ["1\n", "U1\n", "A\n", "2\n", "T2\n", "b\n", "B\n", "\n"] && st.processed == 1
            && st.timingMatch == [] && st.missingInOriginal == [] && st.missingInFinal == [] && st.log == []
  {
    var orig, fin := RangeOrig, RangeFin;
    var o, f := orig[2], fin[2];
    assert Get(orig, 2) == o && Get(fin, 2) == f;
    RangeFirst();
    var st1 := MainPass(orig, fin, Only2, 1);
    assert MainPass(orig, fin, Only2, 2) == Visit(st1, orig, fin, Only2, 2);
    RestoreStep(st1, orig, fin, Only2, 2);
    assert o == [o[0], o[1]] && f[1..] == [f[1]];
    TerminateTwo(o[0], o[1]);
    TerminateOne(f[1]);
    assert NatToString(2) + "\n" == "2\n";
    assert o[0] + "\n" == "T2\n" && o[1] + "\n" == "b\n" && f[1] + "\n" == "B\n";
  }

  /**
   The line range `[2, 2]`: index 1 lies outside it, so its final entry is
   written as it stands, with no blank line after it; index 2 lies inside
   it and has its original timing restored. Only index 2 counts as processed.
   */
  lemma RangeRestoresInside()
    ensures var st := Merge(RangeOrig, RangeFin, 2, Only2);
            st.output == ["1\n", "U1\n", "A\n", "2\n", "T2\n", "b\n", "B\n", "\n"] && st.processed == 1
            && st.timingMatch == [] && st.missingInOriginal == [] && st.missingInFinal == [] && st.log == []
  {
    assert RangeOrig.Keys == {1, 2} && RangeFin.Keys == {1, 2};
    assert |RangeOrig| == 2 && |RangeFin| == 2;
    RangeMainPass();
    assert TrailingPass(RangeFin, 3, 3) == [];
  }

  // Trailing recovery: the original has index 1 only, the final file indices 1 and 2.
  const RecoveryOrig: Table := map[1 := ["T1", "Hi"]]
  const RecoveryFin: Table := map[1 := ["T1'", "Hello"], 2 := ["T2", "World"]]

  lemma RecoveryMainPass()
    ensures var st := MainPass(RecoveryOrig, RecoveryFin, NoRange, 2);
            st.output == ["1\n", "T1\n", "Hi\n", "Hello\n", "\n"]
            && st.missingInOriginal == [2] && st.missingInFinal == [] && st.timingMatch == [] && st.log == []
  {
    var orig, fin := RecoveryOrig, RecoveryFin;
    var o, f := orig[1], fin[1];
    assert Get(orig, 1) == o && Get(fin, 1) == f && Get(orig, 2) == [];
    var st1 := MainPass(orig, fin, NoRange, 1);
    assert st1 == Visit(Initial, orig, fin, NoRange, 1);
    RestoreStep(Initial, orig, fin, NoRange, 1);
    assert MainPass(orig, fin, NoRange, 2) == Visit(st1, orig, fin, NoRange, 2);
    MissingStep(st1, orig, fin, NoRange, 2);
    assert o == [o[0], o[1]] && f[1..] == [f[1]];
    TerminateTwo(o[0], o[1]);
    TerminateOne(f[1]);
    assert NatToString(1) + "\n" == "1\n";
    assert o[0] + "\n" == "T1\n" && o[1] + "\n" == "Hi\n" && f[1] + "\n" == "Hello\n";
  }

  lemma RecoveryTrailingPass()
    ensures TrailingPass(RecoveryFin, 2, 3) == ["2\n", "T2\n", "World\n", "\n"]
  {
    var g := RecoveryFin[2];
    assert Get(RecoveryFin, 2) == g == [g[0], g[1]];
    assert TrailingPass(RecoveryFin, 2, 3) == TrailingEntry(RecoveryFin, 2);
    TerminateTwo(g[0], g[1]);
    FlattenSingle(g);
    assert NatToString(2) + "\n" == "2\n";
    assert g[0] + "\n" == "T2\n" && g[1] + "\n" == "World\n";
  }

  /**
   An index only the final file has, above the original table's size: the
   main loop records it as missing in the original, and the trailing pass
   writes the final entry. Timing lines are abbreviated to `T..`.
   */
  lemma TrailingRecovery()
    ensures var st := Merge(RecoveryOrig, RecoveryFin, 2, NoRange);
            st.output == ["1\n", "T1\n", "Hi\n", "Hello\n", "\n", "2\n", "T2\n", "World\n", "\n"]
            && st.missingInOriginal == [2] && st.missingInFinal == [] && st.timingMatch == [] && st.log == []
  {
    assert RecoveryFin.Keys == {1, 2};
    assert |RecoveryOrig| == 1 && |RecoveryFin| == 2;
    RecoveryMainPass();
    RecoveryTrailingPass();
  }

  // A repeated index: the original has indices 1 and 3, the final file 1, 2 and 3.
  const RepeatOrig: Table := map[1 := ["T1", "a"], 3 := ["T3", "c"]]
  const RepeatFin: Table := map[1 := ["U1", "A"], 2 := ["U2", "B"], 3 := ["U3", "C"]]

  lemma RepeatFirstTwo()
    ensures var st := MainPass(RepeatOrig, RepeatFin, NoRange, 2);
            st.output == ["1\n", "T1\n", "a\n", "A\n", "\n"] && st.missingInOriginal == [2]
  {
    var orig, fin := RepeatOrig, RepeatFin;
    var o1, f1 := orig[1], fin[1];
    assert Get(orig, 1) == o1 && Get(orig, 2) == [] && Get(fin, 1) == f1;
    var st1 := MainPass(orig, fin, NoRange, 1);
    assert st1 == Visit(Initial, orig, fin, NoRange, 1);
    RestoreStep(Initial, orig, fin, NoRange, 1);
    assert MainPass(orig, fin, NoRange, 2) == Visit(st1, orig, fin, NoRange, 2);
    MissingStep(st1, orig, fin, NoRange, 2);
    assert o1 == [o1[0], o1[1]] && f1[1..] == [f1[1]];
    TerminateTwo(o1[0], o1[1]);
    TerminateOne(f1[1]);
    assert NatToString(1) + "\n" == "1\n";
    assert o1[0] + "\n" == "T1\n" && o1[1] + "\n" == "a\n" && f1[1] + "\n" == "A\n";
  }

  lemma RepeatMainPass()
    ensures var st := MainPass(RepeatOrig, RepeatFin, NoRange, 3);
            st.output == ["1\n", "T1\n", "a\n", "A\n", "\n", "3\n", "T3\n", "c\n", "C\n", "\n"]
            && st.missingInOriginal == [2]
  {
    var orig, fin := RepeatOrig, RepeatFin;
    var o3, f3 := orig[3], fin[3];
    assert Get(orig, 3) == o3 && Get(fin, 3) == f3;
    RepeatFirstTwo();
    var st2 := MainPass(orig, fin, NoRange, 2);
    assert MainPass(orig, fin, NoRange, 3) == Visit(st2, orig, fin, NoRange, 3);
    RestoreStep(st2, orig, fin, NoRange, 3);
    assert o3 == [o3[0], o3[1]] && f3[1..] == [f3[1]];
    TerminateTwo(o3[0], o3[1]);
    TerminateOne(f3[1]);
    assert NatToString(3) + "\n" == "3\n";
    assert o3[0] + "\n" == "T3\n" && o3[1] + "\n" == "c\n" && f3[1] + "\n" == "C\n";
  }

  lemma RepeatTrailingPass()
    ensures TrailingPass(RepeatFin, 3, 4) == ["3\n", "U3\n", "C\n", "\n"]
  {
    var g := RepeatFin[3];
    assert Get(RepeatFin, 3) == g == [g[0], g[1]];
    assert TrailingPass(RepeatFin, 3, 4) == TrailingEntry(RepeatFin, 3);
    TerminateTwo(g[0], g[1]);
    FlattenSingle(g);
    assert NatToString(3) + "\n" == "3\n";
    assert g[0] + "\n" == "U3\n" && g[1] + "\n" == "C\n";
  }

  /**
   An index the original table has above its own size (its keys are 1 and
   3, so `len(original_dict)` is 2) is restored by the main loop and then
   written again, from the final file alone, by the trailing pass.
   */
  lemma TrailingRepeatsIndex()
    ensures var st := Merge(RepeatOrig, RepeatFin, 3, NoRange);
            st.output == ["1\n", "T1\n", "a\n", "A\n", "\n",
                          "3\n", "T3\n", "c\n", "C\n", "\n",
                          "3\n", "U3\n", "C\n", "\n"]
            && st.missingInOriginal == [2]
  {
    assert RepeatOrig.Keys == {1, 3} && RepeatFin.Keys == {1, 2, 3};
    assert |RepeatOrig| == 2 && |RepeatFin| == 3;
    RepeatMainPass();
    RepeatTrailingPass();
  }
}

=== FILE: subtitle_table.dfy ===
/**
 The index table built from one file's blocks: `{int(b[0]): b[1:] for b in
 blocks if b[0].isdigit()}`. A block whose first line is not all digits is
 dropped without trace, and when two blocks carry the same index the later
 one wins.
 */
module SubtitleTable {
  import opened Text
  import opened BlockParser

  /** Index -> the block's lines after the index line (timing line, then text). */
  type Table = map<nat, seq<string>>

  /** The block's first line is all digits and reads as `k`. */
  predicate HasIndex(b: Block, k: nat)
    requires b != []
  {
    IsDigits(b[0]) && DecimalValue(b[0]) == k
  }

  /**
   The dict comprehension, one assignment per block in order. The source
   reads `b[0]` of every block, so every block must be non-empty, which the
   parser guarantees.
   */
  function CreateSubtitleDict(blocks: seq<Block>): (t: Table)
    requires forall i :: 0 <= i < |blocks| ==> blocks[i] != []
    ensures |t| <= |blocks|
  {
    if blocks == [] then map[]
    else
      var t := CreateSubtitleDict(blocks[..|blocks| - 1]);
      var b := blocks[|blocks| - 1];
      if IsDigits(b[0]) then t[DecimalValue(b[0]) := b[1..]] else t
  }

  /** Some block of `blocks` is indexed `k`. */
  predicate Indexed(blocks: seq<Block>, k: nat)
    requires forall i :: 0 <= i < |blocks| ==> blocks[i] != []
  {
    exists i :: 0 <= i < |blocks| && HasIndex(blocks[i], k)
  }

  /** `k` is a key exactly when some block is indexed `k`. */
  lemma {:induction false} TableKeys(blocks: seq<Block>, k: nat)
    requires forall i :: 0 <= i < |blocks| ==> blocks[i] != []
    ensures k in CreateSubtitleDict(blocks) <==> Indexed(blocks, k)
  {
    if blocks != [] {
      var init, last := blocks[..|blocks| - 1], blocks[|blocks| - 1];
      TableKeys(init, k);
      IndexedSnoc(blocks, k);
      if HasIndex(last, k) {
        assert k in CreateSubtitleDict(blocks);
      } else {
        assert k in CreateSubtitleDict(blocks) <==> k in CreateSubtitleDict(init);
      }
    }
  }

  /** A block list is indexed `k` when its front is, or its last block is. */
  lemma IndexedSnoc(blocks: seq<Block>, k: nat)
    requires blocks != [] && forall i :: 0 <= i < |blocks| ==> blocks[i] != []
    ensures Indexed(blocks, k) <==> Indexed(blocks[..|blocks| - 1], k) || HasIndex(blocks[|blocks| - 1], k)
  {
    var init := blocks[..|blocks| - 1];
    if Indexed(blocks, k) && !HasIndex(blocks[|blocks| - 1], k) {
      var i :| 0 <= i < |blocks| && HasIndex(blocks[i], k);
      assert init[i] == blocks[i];
    }
    if Indexed(init, k) {
      var i :| 0 <= i < |init| && HasIndex(init[i], k);
      assert blocks[i] == init[i];
    }
  }

  /** The value under `k` is the tail of the last block indexed `k`. */
  lemma {:induction false} TableValue(blocks: seq<Block>, k: nat)
    requires forall i :: 0 <= i < |blocks| ==> blocks[i] != []
    requires k in CreateSubtitleDict(blocks)
    ensures exists i :: 0 <= i < |blocks| && HasIndex(blocks[i], k)
                        && CreateSubtitleDict(blocks)[k] == blocks[i][1..]
                        && forall j :: i < j < |blocks| ==> !HasIndex(blocks[j], k)
  {
    var init, last := blocks[..|blocks| - 1], |blocks| - 1;
    if HasIndex(blocks[last], k) {
      assert CreateSubtitleDict(blocks)[k] == blocks[last][1..];
    } else {
      assert k in CreateSubtitleDict(init) && CreateSubtitleDict(blocks)[k] == CreateSubtitleDict(init)[k];
      TableValue(init, k);
      var i :| 0 <= i < |init| && HasIndex(init[i], k) && CreateSubtitleDict(init)[k] == init[i][1..]
               && forall j :: i < j < |init| ==> !HasIndex(init[j], k);
      assert blocks[i] == init[i];
      assert forall j :: i < j < |blocks| ==> !HasIndex(blocks[j], k) by {
        forall j | i < j < |blocks| ensures !HasIndex(blocks[j], k) {
          if j < last {
            assert blocks[j] == init[j];
          }
        }
      }
    }
  }
}

=== FILE: sync.dfy ===
/**
 The merge engine `SubtitleSync.process_subtitles`. Two index tables are
 walked from index 1 to the larger table size. Where both sides have an
 entry, the final file's text is kept and the original file's timing is
 restored, unless the timing lines already agree or the index lies outside
 an active line range. Entries missing on one side and malformed entries are
 collected for the log. A trailing pass then re-emits final entries above the
 original table's size.
 */
module SubtitleSync {
  import opened Wrappers
  import opened Text
  import opened BlockParser
  import opened SubtitleTable
  import opened RangeFormatter
  import opened FileHandler

  // The log texts, as the program writes them.
  const MissingInputEntry := "Ошибка: Пожалуйста, выберите все необходимые файлы и папки.\n"
  const InvalidBoundEntry := "Ошибка: Введите допустимые номера строк для обработки.\n"
  const TimingMatchLabel := "Не обработаны строки из-за совпадения тайминга: "
  const MissingInOriginalLabel := "Отсутствуют строки в оригинальном файле: "
  const MissingInFinalLabel := "Отсутствуют строки в конечном файле: "
  const OriginalEntryPrefix := "Ошибка в оригинальном файле: строка "
  const FinalEntryPrefix := "Ошибка в конечном файле: строка "
  const EntrySuffix := ": Не хватает данных.\n"

  /** Log entry for an index whose original entry lacks a timing or text line. */
  function InsufficientOriginalEntry(n: nat): string {
    OriginalEntryPrefix + NatToString(n) + EntrySuffix
  }

  /** Log entry for an index whose final entry lacks a timing or text line. */
  function InsufficientFinalEntry(n: nat): string {
    FinalEntryPrefix + NatToString(n) + EntrySuffix
  }

  /**
   The inclusive line range `[startLine, endLine]`, as parsed integers. A
   bound of 0 stands for a bound that was not given (or given as "0"): the
   source tests both for truthiness.
   */
  datatype Bounds = Bounds(startLine: int, endLine: int) {
    predicate Active() {
      startLine != 0 && endLine != 0
    }

    /** The index falls outside an active range, so its timing is not restored. */
    predicate Excludes(n: int) {
      Active() && (n < startLine || n > endLine)
    }
  }

  /** `table.get(n)` tested for truthiness: a missing entry and an empty one both read as `[]`. */
  function Get(t: Table, n: nat): seq<string> {
    if n in t then t[n] else []
  }

  /** Each line with the line break that the output file needs. */
  function Terminate(lines: seq<string>): (r: seq<string>)
    ensures |r| == |lines|
  {
    seq(|lines|, i requires 0 <= i < |lines| => lines[i] + "\n")
  }

  /**
   `format_subtitle_block(n, *parts)`: the index line, then the lines of
   every part, each with a line break.
   */
  function FormatSubtitleBlock(n: nat, parts: seq<seq<string>>): (r: seq<string>)
    ensures |r| == 1 + |Flatten(parts)|
    ensures r[0] == NatToString(n) + "\n"
    ensures forall i :: 0 <= i < |r| ==> |r[i]| > 0 && r[i][|r[i]| - 1] == '\n'
  {
    [NatToString(n) + "\n"] + Terminate(Flatten(parts))
  }

  /** What the main loop does with one index. */
  datatype Action =
    | OutsideRange          // both present, range active, index outside it: final entry, no separator
    | InsufficientOriginal  // original entry shorter than two lines: logged, nothing emitted
    | InsufficientFinal     // final entry shorter than two lines: logged, nothing emitted
    | TimingMatch           // timing lines equal: final entry, recorded as a match
    | Restore               // original timing and text, then the final text
    | MissingInOriginal     // original absent or empty, whatever the final side holds
    | MissingInFinal        // original present, final absent or empty

  function Classify(orig: Table, fin: Table, bounds: Bounds, n: nat): Action {
    var o := Get(orig, n);
    var f := Get(fin, n);
    if o != [] && f != [] then
      if bounds.Excludes(n) then OutsideRange
      else if |o| < 2 then InsufficientOriginal
      else if |f| < 2 then InsufficientFinal
      else if o[0] == f[0] then TimingMatch
      else Restore
    else if o == [] then MissingInOriginal
    else MissingInFinal
  }

  /** The loop's variables: `result_lines`, `log_entries`, the three anomaly lists and `processed_lines`. */
  datatype MergeState = MergeState(
    output: seq<string>,
    log: seq<string>,
    timingMatch: seq<nat>,
    missingInOriginal: seq<nat>,
    missingInFinal: seq<nat>,
    processed: nat)

  const Initial := MergeState([], [], [], [], [], 0)

  /** One iteration of the main loop, for index `n`. */
  function Visit(st: MergeState, orig: Table, fin: Table, bounds: Bounds, n: nat): MergeState {
    var o := Get(orig, n);
    var f := Get(fin, n);
    match Classify(orig, fin, bounds, n)
    case OutsideRange =>
      st.(output := st.output + FormatSubtitleBlock(n, [f]))
    case InsufficientOriginal =>
      st.(log := st.log + [InsufficientOriginalEntry(n)])
    case InsufficientFinal =>
      st.(log := st.log + [InsufficientFinalEntry(n)])
    case TimingMatch =>
      st.(output := st.output + FormatSubtitleBlock(n, [f]) + ["\n"],
          timingMatch := st.timingMatch + [n], processed := st.processed + 1)
    case Restore =>
      st.(output := st.output + FormatSubtitleBlock(n, [o, f[1..]]) + ["\n"],
          processed := st.processed + 1)
    case MissingInOriginal =>
      st.(missingInOriginal := st.missingInOriginal + [n])
    case MissingInFinal =>
      st.(missingInFinal := st.missingInFinal + [n])
  }

  /** The state after the main loop has visited indices `1..upTo`. */
  function MainPass(orig: Table, fin: Table, bounds: Bounds, upTo: nat): MergeState {
    if upTo == 0 then Initial
    else Visit(MainPass(orig, fin, bounds, upTo - 1), orig, fin, bounds, upTo)
  }

  /** `max(len(original_dict), len(final_dict))`. */
  function MaxLineNumber(orig: Table, fin: Table): nat {
    if |orig| >= |fin| then |orig| else |fin|
  }

  /** What the trailing pass emits for index `n`. */
  function TrailingEntry(fin: Table, n: nat): seq<string> {
    if Get(fin, n) != [] then FormatSubtitleBlock(n, [Get(fin, n)]) + ["\n"] else []
  }

  /** The lines the trailing pass emits for the indices `lo <= n < hi`. */
  function TrailingPass(fin: Table, lo: nat, hi: nat): seq<string>
    decreases hi - lo
  {
    if hi <= lo then [] else TrailingPass(fin, lo, hi - 1) + TrailingEntry(fin, hi - 1)
  }

  /**
   Both passes: the main loop over `1..max(|orig|, |fin|)`, then the trailing
   pass over `|orig| + 1 .. finalBlockCount`, where `finalBlockCount` is the
   number of blocks parsed from the final file (not the size of its table).
   */
  function Merge(orig: Table, fin: Table, finalBlockCount: nat, bounds: Bounds): MergeState {
    var st := MainPass(orig, fin, bounds, MaxLineNumber(orig, fin));
    st.(output := st.output + TrailingPass(fin, |orig| + 1, finalBlockCount + 1))
  }

  /** A labelled range entry, present only when the list is non-empty. */
  function RangeEntry(heading: string, ns: seq<nat>): seq<string> {
    if ns == [] then [] else [heading + FormatRangesSpec(ns) + "\n"]
  }

  /**
   The log of a completed run: the per-index entries in loop order, then the
   timing matches, the indices missing in the original and those missing in
   the final file.
   */
  function AssembleLog(st: MergeState): seq<string> {
    st.log + RangeEntry(TimingMatchLabel, st.timingMatch)
           + RangeEntry(MissingInOriginalLabel, st.missingInOriginal)
           + RangeEntry(MissingInFinalLabel, st.missingInFinal)
  }

  /** A line-range bound as typed: empty, an integer, or text `int()` rejects. */
  datatype BoundText = Blank | Number(value: int) | NotANumber

  /** `int(text) if text else None`, with `None` and 0 both meaning "no bound". */
  function BoundValue(b: BoundText): int {
    if b.Number? then b.value else 0
  }

  /** The log entries and, on success, the lines written to the merged file. */
  datatype SyncResult = SyncResult(logEntries: seq<string>, written: Option<seq<string>>)

  /** The whole operation on given file contents. */
  function Process(originalPath: string, finalPath: string, savePath: string, isWindows: bool,
                   startText: BoundText, endText: BoundText,
                   originalLines: seq<string>, finalLines: seq<string>): SyncResult
  {
    if NormalizePath(originalPath, isWindows) == [] || NormalizePath(finalPath, isWindows) == []
       || NormalizePath(savePath, isWindows) == [] then
      SyncResult([MissingInputEntry], None)
    else if startText.NotANumber? || endText.NotANumber? then
      SyncResult([InvalidBoundEntry], None)
    else
      var originalBlocks := ParseBlocks(originalLines);
      var finalBlocks := ParseBlocks(finalLines);
      ParsedBlocksWellFormed(originalLines);
      ParsedBlocksWellFormed(finalLines);
      var st := Merge(CreateSubtitleDict(originalBlocks), CreateSubtitleDict(finalBlocks), |finalBlocks|,
                      Bounds(BoundValue(startText), BoundValue(endText)));
      SyncResult(AssembleLog(st), Some(st.output))
  }

  /**
   The two loops of `process_subtitles` over the built tables; the state
   carries the result lines, the log and the three lists the loops build.
   */
  method MergeTables(orig: Table, fin: Table, finalBlockCount: nat, bounds: Bounds)
    returns (st: MergeState)
    ensures st == Merge(orig, fin, finalBlockCount, bounds)
  {
    st := Initial;
    var maxLineNumber := if |orig| >= |fin| then |orig| else |fin|;
    for lineNumber := 1 to maxLineNumber + 1
      invariant st == MainPass(orig, fin, bounds, lineNumber - 1)
    {
      st := VisitIndex(st, orig, fin, bounds, lineNumber);
    }
    var resultLines := RecoverTrailing(fin, |orig| + 1, finalBlockCount, st.output);
    st := st.(output := resultLines);
  }

  /** The body of the main loop for one index; each early `return` is a `continue` of the loop. */
  method VisitIndex(st: MergeState, orig: Table, fin: Table, bounds: Bounds, lineNumber: nat)
    returns (next: MergeState)
    ensures next == Visit(st, orig, fin, bounds, lineNumber)
  {
    next := st;
    var origBlock := Get(orig, lineNumber);
    var finalBlock := Get(fin, lineNumber);
    if origBlock != [] && finalBlock != [] {
      if bounds.Excludes(lineNumber) {
        next := next.(output := next.output + FormatSubtitleBlock(lineNumber, [finalBlock]));
        return;
      }
      if |origBlock| < 2 {
        next := next.(log := next.log + [InsufficientOriginalEntry(lineNumber)]);
        return;
      }
      if |finalBlock| < 2 {
        next := next.(log := next.log + [InsufficientFinalEntry(lineNumber)]);
        return;
      }
      if origBlock[0] == finalBlock[0] {
        next := next.(timingMatch := next.timingMatch + [lineNumber]);
        next := next.(output := next.output + FormatSubtitleBlock(lineNumber, [finalBlock]));
      } else {
        next := next.(output := next.output + FormatSubtitleBlock(lineNumber, [origBlock, finalBlock[1..]]));
      }
      next := next.(output := next.output + ["\n"], processed := next.processed + 1);
    } else if origBlock == [] {
      next := next.(missingInOriginal := next.missingInOriginal + [lineNumber]);
    } else {
      next := next.(missingInFinal := next.missingInFinal + [lineNumber]);
    }
  }

  /**
   The trailing pass `for line_number in range(lo, finalBlockCount + 1)`: every
   non-empty final entry in that range is appended with a blank separator.
   */
  method RecoverTrailing(fin: Table, lo: nat, finalBlockCount: nat, lines: seq<string>)
    returns (resultLines: seq<string>)
    ensures resultLines == lines + TrailingPass(fin, lo, finalBlockCount + 1)
  {
    resultLines := lines;
    var lineNumber := lo;
    while lineNumber <= finalBlockCount
      invariant lo <= lineNumber <= if lo <= finalBlockCount + 1 then finalBlockCount + 1 else lo
      invariant resultLines == lines + TrailingPass(fin, lo, lineNumber)
    {
      ghost var before := resultLines;
      var finalBlock := Get(fin, lineNumber);
      if finalBlock != [] {
        resultLines := resultLines + FormatSubtitleBlock(lineNumber, [finalBlock]);
        resultLines := resultLines + ["\n"];
      }
      TrailingStep(fin, lo, lineNumber, lines, before, resultLines);
      lineNumber := lineNumber + 1;
    }
  }

  lemma TrailingStep(fin: Table, lo: nat, n: nat, lines: seq<string>, before: seq<string>, after: seq<string>)
    requires lo <= n
    requires before == lines + TrailingPass(fin, lo, n)
    requires Get(fin, n) != [] ==> after == before + FormatSubtitleBlock(n, [Get(fin, n)]) + ["\n"]
    requires Get(fin, n) == [] ==> after == before
    ensures after == lines + TrailingPass(fin, lo, n + 1)
  {
  }

  /** Appends the labelled range entry for `ns`, unless `ns` is empty. */
  method AppendRangeEntry(logEntries: seq<string>, heading: string, ns: seq<nat>) returns (r: seq<string>)
    ensures r == logEntries + RangeEntry(heading, ns)
  {
    r := logEntries;
    if ns != [] {
      var text := FormatRanges(ns);
      r := r + [heading + text + "\n"];
    }
  }

  /**
   `process_subtitles` on given file contents: the path check, the bound
   check, parsing, table building, both loops and the log.
   */
  method ProcessSubtitles(originalPath: string, finalPath: string, savePath: string, isWindows: bool,
                          startText: BoundText, endText: BoundText,
                          originalLines: seq<string>, finalLines: seq<string>)
    returns (r: SyncResult)
    ensures r == Process(originalPath, finalPath, savePath, isWindows, startText, endText,
                         originalLines, finalLines)
  {
    var original := NormalizePath(originalPath, isWindows);
    var final := NormalizePath(finalPath, isWindows);
    var save := NormalizePath(savePath, isWindows);
    if original == [] || final == [] || save == [] {
      return SyncResult([MissingInputEntry], None);
    }
    if startText.NotANumber? || endText.NotANumber? {
      return SyncResult([InvalidBoundEntry], None);
    }
    var bounds := Bounds(BoundValue(startText), BoundValue(endText));
    var originalBlocks := ParseSubtitleBlocks(originalLines);
    var finalBlocks := ParseSubtitleBlocks(finalLines);
    ParsedBlocksWellFormed(originalLines);
    ParsedBlocksWellFormed(finalLines);
    var originalDict := CreateSubtitleDict(originalBlocks);
    var finalDict := CreateSubtitleDict(finalBlocks);
    var st := MergeTables(originalDict, finalDict, |finalBlocks|, bounds);
    assert Process(originalPath, finalPath, savePath, isWindows, startText, endText, originalLines, finalLines)
        == SyncResult(AssembleLog(st), Some(st.output));
    var logEntries := st.log;
    logEntries := AppendRangeEntry(logEntries, TimingMatchLabel, st.timingMatch);
    logEntries := AppendRangeEntry(logEntries, MissingInOriginalLabel, st.missingInOriginal);
    logEntries := AppendRangeEntry(logEntries, MissingInFinalLabel, st.missingInFinal);
    r := SyncResult(logEntries, Some(st.output));
  }
}

=== FILE: text.dfy ===
/**
 The string primitives the merge engine relies on: Python's argument-less
 `str.strip()`, `str.isdigit()`, `int()` on a string of digits and `f"{n}"`
 on an integer. Only the ASCII whitespace characters and the ASCII digits
 are modelled.
 */
module Text {

  /** The ASCII characters that `str.strip()` removes: space, \t \n \v \f \r and \x1c-\x1f. */
  predicate IsSpace(c: char) {
    c == ' ' || ('\t' <= c <= '\r') || ('\U{1C}' <= c <= '\U{1F}')
  }

  predicate IsDigit(c: char) {
    '0' <= c <= '9'
  }

  /** Every character of `s` is whitespace (so `s.strip()` is empty). */
  predicate AllSpace(s: string) {
    forall i :: 0 <= i < |s| ==> IsSpace(s[i])
  }

  function TrimLeft(s: string): (r: string)
    ensures |r| <= |s|
    ensures r == [] || !IsSpace(r[0])
  {
    if s != [] && IsSpace(s[0]) then TrimLeft(s[1..]) else s
  }

  function TrimRight(s: string): (r: string)
    ensures |r| <= |s|
    ensures r == [] || !IsSpace(r[|r| - 1])
    ensures s != [] && !IsSpace(s[0]) ==> r != [] && r[0] == s[0]
  {
    if s != [] && IsSpace(s[|s| - 1]) then TrimRight(s[..|s| - 1]) else s
  }

  /** What `TrimLeft` removes is a whitespace prefix. */
  lemma {:induction false} TrimLeftIsSuffix(s: string)
    ensures TrimLeft(s) == s[|s| - |TrimLeft(s)|..]
    ensures AllSpace(s[..|s| - |TrimLeft(s)|])
  {
    if s != [] && IsSpace(s[0]) {
      TrimLeftIsSuffix(s[1..]);
    }
  }

  /** What `TrimRight` removes is a whitespace suffix. */
  lemma {:induction false} TrimRightIsPrefix(s: string)
    ensures TrimRight(s) == s[..|TrimRight(s)|]
    ensures AllSpace(s[|TrimRight(s)|..])
  {
    if s != [] && IsSpace(s[|s| - 1]) {
      TrimRightIsPrefix(s[..|s| - 1]);
    }
  }

  /**
   `str.strip()`: `s` without its leading and trailing whitespace, so the
   result neither starts nor ends with whitespace.
   */
  function Strip(s: string): (r: string)
    ensures r == [] || (!IsSpace(r[0]) && !IsSpace(r[|r| - 1]))
  {
    TrimRight(TrimLeft(s))
  }

  /** `s.strip()` is a slice of `s` with only whitespace around it. */
  lemma StripIsSurroundedSlice(s: string)
    ensures exists i :: 0 <= i <= |s| - |Strip(s)| && Strip(s) == s[i..i + |Strip(s)|]
                        && AllSpace(s[..i]) && AllSpace(s[i + |Strip(s)|..])
  {
    var left := TrimLeft(s);
    var r := TrimRight(left);
    TrimLeftIsSuffix(s);
    TrimRightIsPrefix(left);
    var i := |s| - |left|;
    assert r == s[i..i + |r|] && s[i + |r|..] == left[|r|..];
  }

  /** `s.strip()` is empty exactly when `s` is whitespace only (the blank-line test). */
  lemma StripEmptyIffBlank(s: string)
    ensures Strip(s) == [] <==> AllSpace(s)
  {
    if Strip(s) == [] {
      TrimLeftIsSuffix(s);
      assert TrimLeft(s) == [] && s[..|s|] == s;
    } else {
      StripIsSurroundedSlice(s);
    }
  }

  /** A string that neither starts nor ends with whitespace is its own `strip()`. */
  lemma StripTrimmed(s: string)
    requires s == [] || (!IsSpace(s[0]) && !IsSpace(s[|s| - 1]))
    ensures Strip(s) == s
  {
  }

  /** `strip()` is idempotent. */
  lemma StripIdempotent(s: string)
    ensures Strip(Strip(s)) == Strip(s)
  {
    StripTrimmed(Strip(s));
  }

  /** `str.isdigit()` on ASCII: non-empty and made of decimal digits only. */
  predicate IsDigits(s: string) {
    s != [] && forall i :: 0 <= i < |s| ==> IsDigit(s[i])
  }

  function DigitValue(c: char): nat
    requires IsDigit(c)
  {
    c as int - '0' as int
  }

  function DigitChar(d: nat): (c: char)
    requires d < 10
    ensures IsDigit(c) && DigitValue(c) == d
  {
    ('0' as int + d) as char
  }

  /** `int(s)` for a string of decimal digits (leading zeros allowed). */
  function DecimalValue(s: string): nat
    requires forall i :: 0 <= i < |s| ==> IsDigit(s[i])
  {
    if s == [] then 0
    else DecimalValue(s[..|s| - 1]) * 10 + DigitValue(s[|s| - 1])
  }

  /** `f"{n}"` for a natural number: its decimal digits, no leading zero. */
  function NatToString(n: nat): (s: string)
    ensures IsDigits(s)
    ensures |s| > 1 ==> s[0] != '0'
  {
    if n < 10 then [DigitChar(n)] else NatToString(n / 10) + [DigitChar(n % 10)]
  }

  /** `f"{i}"` for any integer: a minus sign before the digits of a negative number. */
  function IntToString(i: int): string {
    if i < 0 then "-" + NatToString(-i) else NatToString(i)
  }

  /** Reading back the decimal text of `n` gives `n`. */
  lemma {:induction false} NatToStringRoundTrip(n: nat)
    ensures DecimalValue(NatToString(n)) == n
  {
    if n >= 10 {
      NatToStringRoundTrip(n / 10);
      var s := NatToString(n);
      assert s[..|s| - 1] == NatToString(n / 10);
    }
  }

  /** Distinct numbers have distinct decimal texts. */
  lemma NatToStringInjective(m: nat, n: nat)
    requires NatToString(m) == NatToString(n)
    ensures m == n
  {
    NatToStringRoundTrip(m);
    NatToStringRoundTrip(n);
  }
}

=== FILE: wrappers.dfy ===
/** The optional value used where the source returns `None`. */
module Wrappers {
  datatype Option<T> = None | Some(value: T)
}
